=== FILE: README.md ===
# Kubernikus control plane provider, modelled in Dafny

This project models the decision logic of a Cluster API control plane
provider that runs control planes on Kubernikus. The provider reconciles a
`KubernikusControlPlane` object (the KCP): it reads the KCP and its owner
`Cluster`, builds a Kubernikus client from a connection secret, makes sure a
Kubernikus cluster (a "kluster") exists for the KCP, copies the kluster's
status onto the KCP, publishes the API endpoint on the owner cluster, and
provisions the kubeconfig and certificate secrets and rotates the kubeconfig
secret.

All of this is I/O, so each call into Kubernetes, the Kubernikus API or an
HTTP server is replaced by the outcome a caller supplies:

- `Controller.Reconcile` is a pure function from a `Script`, one outcome per
  collaborator call, to a `Cycle`. A cycle is the trace of `Step`s performed
  and a verdict `Done`, `Requeue` or `Failed(error)`.
- `Token.GetToken` works over two HTTP response summaries. Each summary holds
  the status code, the redirect count, the final URL and the decoded body.
- `Auth.AuthenticateRequest` is the token cache, a two-field state machine.
  Time is an integer number of nanoseconds, passed in by the caller.
- `Gateway.EnsureControlPlane`, `Status.GetStatus` and `Endpoint.GetEndpoint`
  work over the outcomes of the Kubernikus API calls.

Files and modules:

- `base.dfy` (`Base`): `Option`, `Result`, errors and map lookup with Go's
  missing-key semantics.
- `api_types.dfy` (`Api`): the KCP spec and status, owner references, the
  owner cluster, secrets, certificates and the resolved kubeconfig.
- `gateway.dfy` (`Gateway`): klusters, the remote calls, the create payload
  and create-if-absent.
- `status.dfy` (`Status`) and `endpoint.dfy` (`Endpoint`): the status
  projection and the endpoint derivation.
- `token.dfy` (`Token`) and `auth.dfy` (`Auth`): the login protocol and
  request signing.
- `controller.dfy` (`Controller`): `convertSecret` and the reconcile cycle,
  split into stages.
- `reconcile_props.dfy` (`ReconcileProps`): the early exits, fail-fast and
  step order. These are stated against two reference definitions that do
  not depend on how `Reconcile` is composed:
  - `StepFailure` gives the error each step meets under a script;
  - `Rank` gives the fixed position of each kind of step.
- `gating.dfy` (`Gating`): what is persisted and how endpoint publication,
  credential work and rotation are gated.
- `identity.dfy` (`Identity`): which parts of the KCP a cycle reads.

The model follows the code as written:

- `EnsureControlPlane` never updates an existing kluster. There is no
  version-diff update path.
- The create payload maps only the name and the version, plus four
  constants. No optional spec field is merged into it.

## Model

| member | source | states |
|---|---|---|
| Controller.ConvertSecret | internal/controller/kubernikuscontrolplane_controller.go:253-259 | the key set is unchanged |
| Controller.ConvertedValue | internal/controller/kubernikuscontrolplane_controller.go:255-257 | each converted value is a prefix of the original and at most one character shorter; it is unchanged exactly when the original does not end in a newline, and otherwise it is the original minus that newline |
| Controller.ClientConfigFor | internal/controller/kubernikuscontrolplane_controller.go:106-109 | the backend client is built from the converted `host`, `user`, `pass` and `conn` values, each "" when missing, and from the `auth` value with `/auth/login` appended |
| Controller.GroupVersionSplit | internal/controller/kubernikuscontrolplane_controller.go:85 | an owner reference's apiVersion written as group, slash, version is in that group; one without a slash is in the core group "" |
| Controller.OwnerLookup | internal/controller/kubernikuscontrolplane_controller.go:85 | the owner lookup finds nothing exactly when every reference is either not of kind Cluster or of a parsable apiVersion outside `cluster.x-k8s.io`; otherwise the first reference that is neither decides: its unparsable apiVersion is the error, or the Cluster of its name in the KCP's namespace is fetched |
| Controller.Reconcile | internal/controller/kubernikuscontrolplane_controller.go:61-242 | every cycle starts by reading the requested KCP; what follows is stated by the `ReconcileProps`, `Gating` and `Identity` lemmas |
| Controller.GenerateKubeconfigSecret | internal/controller/kubernikuscontrolplane_controller.go:157 | the generated kubeconfig secret belongs to the owner cluster's key, holds the fetched kubeconfig text and is owned by that Cluster (`cluster.x-k8s.io/v1beta1`, kind Cluster, its name and uid, no flags set) |
| Controller.ClusterOwnerFollowed | internal/controller/kubernikuscontrolplane_controller.go:157 | the owner reference put on a generated kubeconfig secret is one the owner lookup follows back to that same Cluster |
| Controller.CertificateOwner | internal/controller/kubernikuscontrolplane_controller.go:199-208 | the certificate secrets are owned by the KCP itself (its API group and version, kind, name and uid), as neither controller nor deletion blocker |
| Controller.DerivedCertificates | internal/controller/kubernikuscontrolplane_controller.go:175-198 | exactly two certificates: the service-account pair from the current context's auth info, and the cluster CA from the current context's cluster with the key from the CA secret's `tls.key`; both external and generated |
| ReconcileProps.ControlPlaneMissing | internal/controller/kubernikuscontrolplane_controller.go:68-76 | a NotFound KCP ends the cycle with success after the one read; any other read error is returned, and nothing else happens |
| ReconcileProps.NoOwnerRequeues | internal/controller/kubernikuscontrolplane_controller.go:78-81 | a KCP without owner references yields a requeue with no error, and no owner lookup, backend call or write |
| ReconcileProps.OwnerFromReferences | internal/controller/kubernikuscontrolplane_controller.go:85-101 | the cycle's second step fetches the Cluster named by the deciding owner reference, in the KCP's namespace, and the connection secret is then read under that same key; an unparsable apiVersion on that reference fails the cycle with the parse error |
| ReconcileProps.OwnerMissing | internal/controller/kubernikuscontrolplane_controller.go:85-93 | a NotFound owner cluster ends the cycle with success; any other error is returned unchanged; nothing follows the owner lookup |
| ReconcileProps.RequeueOnlyWithoutOwner | internal/controller/kubernikuscontrolplane_controller.go:61-242 | a requeue is asked for exactly when the KCP exists and has no owner references |
| ReconcileProps.FailFast | internal/controller/kubernikuscontrolplane_controller.go:100-239 | every step but the last succeeded under the script; the cycle fails exactly when its last step fails, with that step's error, so no later step runs after a failure |
| ReconcileProps.StepsInOrder | internal/controller/kubernikuscontrolplane_controller.go:68-239 | the trace follows the fixed order (KCP, owner, connection secret, client, ensure, status fetch, status write, endpoint, credentials, rotation), each step at most once |
| ReconcileProps.ReconcileSound | internal/controller/kubernikuscontrolplane_controller.go:61-242 | every cycle performs at least one step, fails fast and keeps the step order |
| ReconcileProps.ChainOrdered | internal/controller/kubernikuscontrolplane_controller.go:68-239 | if each step ranks above the one before it, the whole trace is in order |
| Gating.BeforeStatusWrite | internal/controller/kubernikuscontrolplane_controller.go:100-121 | if any call before the status write fails, the cycle stops before the status write |
| Gating.StatusWritten | internal/controller/kubernikuscontrolplane_controller.go:117-124 | once every earlier call succeeded, the status fetched in this cycle is written |
| Gating.StatusIsFresh | internal/controller/kubernikuscontrolplane_controller.go:123-124 | every status written is exactly the projection of the status list fetched in this cycle |
| Gating.PublishGated | internal/controller/kubernikuscontrolplane_controller.go:130-142 | endpoint work happens only after a successful status write with a ready status and an owner whose endpoint host is empty; any owner update carries the parsed host and port 443 and changes nothing else |
| Gating.PublishHappens | internal/controller/kubernikuscontrolplane_controller.go:130-131 | conversely, a ready status, a written status and an empty owner host always lead to the show call for the KCP |
| Gating.PublishCompletes | internal/controller/kubernikuscontrolplane_controller.go:130-141 | conversely, with a ready, written status, an empty owner host and a backend address that parses, the owner is updated with the parsed host and port 443, and a failed update is the cycle's error |
| Gating.CredentialsGated | internal/controller/kubernikuscontrolplane_controller.go:143-144 | no kubeconfig or certificate secret is looked up, created or updated unless the status was written and is ready, and publication did not fail |
| Gating.DoneProceeds | internal/controller/kubernikuscontrolplane_controller.go:100-128 | a successful cycle for an owned KCP whose status is ready got past every call before the status write |
| Gating.ReadyCycleChecksRotation | internal/controller/kubernikuscontrolplane_controller.go:144-225 | a successful cycle with a ready status looked up the owner's kubeconfig secret and ran the rotation check |
| Gating.ExistingSecretReused | internal/controller/kubernikuscontrolplane_controller.go:146-147 | when the kubeconfig secret exists, nothing is created, loaded, fetched or saved for provisioning, and the rotation check is applied to the existing secret |
| Gating.MissingSecretProvisioned | internal/controller/kubernikuscontrolplane_controller.go:148-221 | when the secret is missing, a rotation check runs only on the freshly generated secret, after that secret was created and the derived certificates were saved under the owner cluster's key |
| Gating.SecretLookupFailure | internal/controller/kubernikuscontrolplane_controller.go:215-218 | a kubeconfig secret lookup error other than NotFound is the cycle's error |
| Gating.RotationGated | internal/controller/kubernikuscontrolplane_controller.go:221-239 | the kubeconfig secret is updated only when the rotation check says so, with a secret generated from freshly fetched credentials, and the update's outcome is the cycle's verdict |
| Gating.RotationHappens | internal/controller/kubernikuscontrolplane_controller.go:226-238 | conversely, a successful cycle over a ready KCP whose rotation check says the kubeconfig is due fetched credentials and rewrote the kubeconfig secret with the secret generated from them, and that write succeeded |
| Gating.ConnectionConfig | internal/controller/kubernikuscontrolplane_controller.go:100-109 | the backend client is configured from the converted connection secret and from nothing else |
| Identity.OnlyIdentityRead | internal/controller/kubernikuscontrolplane_controller.go:61-242 | a KCP with the same key, uid and spec version, with owner references exactly when the original has some, and whose references send the owner lookup to the same place, yields the same cycle |
| Identity.PriorStatusIgnored | internal/controller/kubernikuscontrolplane_controller.go:123-124 | the status the KCP carried before the cycle has no influence; nothing is merged from it |
| Auth.NewClient | internal/kubernikus/client.go:25-34 | a new client keeps its settings and starts with an empty token stamped with Go's zero time |
| Auth.Since | internal/kubernikus/client.go:38 | elapsed time is the difference of the clock readings, saturated to the signed 64-bit nanosecond range |
| Auth.AuthenticateRequest | internal/kubernikus/client.go:36-51 | a login happens exactly when the token is more than 30 minutes old; a successful login stores the token stamped with the clock reading taken after the login returned, not the one the age was tested at; a failed one is returned, sets no header, clears the token and keeps its time; a set header is `Bearer ` plus the token, and a header-set failure is returned |
| Auth.FreshClientLogsIn | internal/kubernikus/client.go:25-38 | a new client logs in on its first call |
| Auth.ReusedWithinTtl | internal/kubernikus/client.go:38-46 | after a successful login that returned at `done`, calls up to exactly `done` plus 30 minutes reuse the token and send it; a later call logs in again |
| Auth.FailedLoginStaysStale | internal/kubernikus/client.go:38-43 | after a failed login the client stays stale for every later call |
| Auth.SinceMonotonic | internal/kubernikus/client.go:38 | elapsed time does not decrease as the clock advances |
| Auth.NoLoginWithinTtl | internal/kubernikus/client.go:36-51 | a series of calls made no later than 30 minutes after the token's time makes no login and leaves the client unchanged |
| Auth.OneLoginPerTtl | internal/kubernikus/client.go:36-51 | a series of calls spanning at most 30 minutes and starting with a successful login logs in exactly once, however long that login took |
| Gateway.FirstNamed | internal/kubernikus/status.go:22-33 | a found index is in range and its record has the name |
| Gateway.FirstNamedFinds | internal/kubernikus/status.go:22-33 | nothing is found exactly when no record has the name; otherwise the index found is that of the first record with the name |
| Gateway.FirstNamedUnique | internal/kubernikus/status.go:22-33 | any record that has the name, with no earlier record having it, is the one found |
| Gateway.BuildKluster | internal/kubernikus/client.go:83-95 | the payload carries the KCP's name and spec version, no-cloud, backup "off", no dashboard and no dex, and every other field at its zero value; the status phase is the empty phase `NoPhase` |
| Gateway.PayloadIgnoresSpec | internal/kubernikus/client.go:83-95 | two KCPs with the same name and version give the same payload, whatever else their specs say |
| Gateway.EnsureControlPlane | internal/kubernikus/client.go:53-77 | the list call comes first and its error ends the step with that error; after a successful list there is either no further call and no error, or one create with the fixed payload, whose error is returned |
| Gateway.CreateIffAbsent | internal/kubernikus/client.go:61-76 | the create is issued exactly when no listed record has the KCP's name; an existing record means no further call and no error |
| Gateway.NeverUpdates | internal/kubernikus/client.go:53-77 | no path issues an update call |
| Gateway.EnsureIdempotent | internal/kubernikus/client.go:61-66 | against a backend that stores what is created, a second ensure after a successful one only lists and changes nothing, and the two together create at most once |
| Gateway.EnsureKeepsNamesUnique | internal/kubernikus/client.go:61-76 | a backend changed only by ensure keeps at most one kluster per name |
| Token.DiscoveryUrl | internal/kubernikus/token.go:25-31 | the discovery request keeps scheme, host and path, and its whole query is replaced by `connector_id` |
| Token.CredentialForm | internal/kubernikus/token.go:44-46 | the form holds exactly `login` and `password`, with the given values |
| Token.GetToken | internal/kubernikus/token.go:17-71 | the discovery GET comes first; its error status is checked before its redirects; the credential POST goes to the URL the discovery ended at, and only after a redirected non-error discovery; the same checks follow for the POST; success exactly when every check passes, with the body's `idToken`, possibly empty |
| Token.DiscoveryRedirectsForgotten | internal/kubernikus/token.go:43-58 | since the redirect counter is reset, the number of discovery redirects, once positive, does not affect the outcome |
| Token.FailureClasses | internal/kubernikus/token.go:25-69 | a failure with at most one request is a discovery failure; a failure after two requests is a credential or parsing failure |
| Token.KindIgnored | internal/kubernikus/token.go:63-70 | the body's `type` field plays no part |
| Status.GetStatus | internal/kubernikus/status.go:14-36 | the result is an error exactly when the list fails, and then it is the list's error; only initialized, ready and version are ever set; ready implies initialized |
| Status.NoRecordZeroStatus | internal/kubernikus/status.go:15-35 | without a record of the KCP's name the result is the zero status |
| Status.FirstRecordDecides | internal/kubernikus/status.go:22-31 | for the first record of the KCP's name, the status is initialized, its version is "v" plus the apiserver version, and it is ready exactly when the phase is Running |
| Status.LaterRecordsIgnored | internal/kubernikus/status.go:22-33 | records after the first match do not change the status |
| Status.OtherNamesIgnored | internal/kubernikus/status.go:22-33 | records of other names in front of the match do not change the status |
| Endpoint.GetEndpoint | internal/kubernikus/endpoint.go:15-31 | the show call uses the KCP's name and its error is returned; an address that does not parse is an error; otherwise the host is the parsed host and the port is always 443 |
| Endpoint.EndpointDependsOnHostOnly | internal/kubernikus/endpoint.go:22-29 | two addresses with the same host give the same endpoint, whatever port they name |

## Left out

- Kubernetes, HTTP and Kubernikus API I/O. Every call is an outcome in the
  `Script` or in the `Exchange`. A cancelled context is one more error
  outcome.
- Logging and the wording of error messages. The POST status error in
  `internal/kubernikus/token.go:54` reports the discovery response's status.
  This changes only the message, so the model does not distinguish it.
- `clientcmd.Load` and the lookups into the loaded kubeconfig. The load is an
  outcome that yields a kubeconfig record. Once the CA secret has also been
  fetched, the Go code dereferences three lookups unchecked: the current
  context (line 176), its auth info (line 178) and its cluster (line 193).
  A missing entry for any of them panics. The model rules this out with
  `KubeconfigResolves`, part of the precondition `WellFormed` on `Reconcile`,
  instead of inventing an error path. A kubeconfig that does not resolve
  while the CA fetch fails is allowed, since that error is returned first.
- `kubeconfig.NeedsClientCertRotation`. The certificate-expiry arithmetic
  lives in a foreign library. The check is an outcome (`rotation`), and the
  30-minute threshold it is given is recorded in the trace.
- `url.Parse` and `Hostname`. Both are the uninterpreted partial function
  `hostOf`. Parsing the configured auth URL is the uninterpreted `parseUrl`.
  Encoding the query back into a string is not modelled.
- Reading the response body. It is abstracted to `Unreadable`, `Malformed`
  or the decoded fields.
- `internal/kubernikus/kubeconfig.go`. It is a single remote call. Its
  outcome is the `credentials` (or, for a rotation, `rotationCredentials`)
  entry of the script.
- `internal/kubernikus/ca_secret.go`. It is a remote call followed by a YAML
  decode of the payload into a Secret (lines 19-29). A failure of either is
  the `caSecret` error outcome. On success `caSecret` stands for the decoded
  secret's `stringData`, the only part the controller reads (controller.go
  line 192). A kubeadm secret that carries its key only under `data` thus
  gives an empty CA key, as it does in the Go code.
- The rest of `kubeconfig.GenerateSecret` from the Cluster API library. The
  model keeps the owning cluster's key, the kubeconfig text and the owner
  reference to the Cluster. It leaves out the secret's name suffix, the
  cluster-name label, the data key and the secret type. These are fixed by
  the library and do not vary with anything the controller chooses.
- `buildKKSName` (`internal/kubernikus/client.go:79-81`). It is never called.
- `SetupWithManager`, RBAC markers and scheme registration. They only wire
  the controller into the manager.
- Concurrent use of the unguarded token cache. The client is modelled
  sequentially.
- The body of `util.GetOwnerCluster`, which belongs to the Cluster API
  library and not to this repository. The model follows its lookup as
  `FindOwnerCluster` (first reference of kind `Cluster` whose apiVersion
  does not parse or has group `cluster.x-k8s.io`; the Cluster is fetched by
  that reference's name in the KCP's namespace) and treats the fetch as the
  `owner` outcome of the script.
- Owner references none of which names a Cluster of that group. The
  lookup then returns neither a cluster nor an error, and the Go code
  dereferences the missing cluster at line 95 and panics. `WellFormed`
  excludes this case through `OwnerAnswers`.
- `api/v1alpha1/kubernikuscontrolplane_types.go`. Its fields are mirrored as
  datatypes. The kubebuilder default of `externalManagedControlPlane` is not
  modelled, because the controller never reads the field.
- The group/version registration file is not part of this model. Its group
  and version string appears as the constant `GroupVersion`.
- Partial failures across cycles. Suppose a cycle creates the kubeconfig
  secret and then fails before saving the certificates. Later cycles find
  the secret, so they never save the certificates. The model shows this per
  cycle through `Gating.ExistingSecretReused`. It does not model a sequence
  of cycles.

=== FILE: api_types.dfy ===
/** The Kubernetes-side records the controller reads and writes: the
    KubernikusControlPlane resource, its owning Cluster, and the secrets
    derived for it. Declarations only. */
module Api {
  import opened Base

  /** A namespaced object name. */
  datatype ObjectKey = ObjectKey(namespace: string, name: string)

  datatype OwnerRef = OwnerRef(
    apiVersion: string,
    kind: string,
    name: string,
    uid: string,
    controller: Option<bool>,
    blockOwnerDeletion: Option<bool>)

  datatype Oidc = Oidc(clientId: string, issuerUrl: string)

  /** The desired state of a managed control plane. */
  datatype ControlPlaneSpec = ControlPlaneSpec(
    version: string,
    serviceCidr: string,
    advertiseAddress: string,
    advertisePort: int,
    backup: string,
    customCni: bool,
    dnsAddress: string,
    dnsDomain: string,
    seedKubeadm: bool,
    sshPublicKey: string,
    oidc: Option<Oidc>)

  datatype Condition = Condition(kind: string, status: string, reason: string, message: string)

  /** The observed state; `externalManaged` is optional in the resource and
      is None when unset. */
  datatype ControlPlaneStatus = ControlPlaneStatus(
    initialized: bool,
    ready: bool,
    failureReason: string,
    failureMessage: string,
    version: string,
    conditions: seq<Condition>,
    externalManaged: Option<bool>)

  /** The status value a freshly allocated status record holds. */
  const ZeroStatus := ControlPlaneStatus(false, false, "", "", "", [], None)

  datatype ControlPlane = ControlPlane(
    key: ObjectKey,
    uid: string,
    ownerRefs: seq<OwnerRef>,
    spec: ControlPlaneSpec,
    status: ControlPlaneStatus)

  /** The address a Cluster publishes for its control plane. */
  datatype ApiEndpoint = ApiEndpoint(host: string, port: int)

  /** The owning Cluster resource, reduced to what the controller touches. */
  datatype Cluster = Cluster(key: ObjectKey, uid: string, endpoint: ApiEndpoint)

  /** The secret holding a cluster's kubeconfig document, stored for the
      cluster under `cluster` and owned by `owner`. */
  datatype KubeconfigSecret = KubeconfigSecret(cluster: ObjectKey, value: string, owner: OwnerRef)

  datatype Purpose = ServiceAccount | ClusterCA

  datatype Certificate = Certificate(
    purpose: Purpose,
    cert: string,
    key: string,
    external: bool,
    generated: bool)

  /** A loaded kubeconfig, reduced to the entries the controller reads. */
  datatype KubeContext = KubeContext(authInfo: string, cluster: string)
  datatype AuthInfo = AuthInfo(clientCertificateData: string, clientKeyData: string)
  datatype KubeCluster = KubeCluster(certificateAuthorityData: string)
  datatype Kubeconfig = Kubeconfig(
    currentContext: string,
    contexts: map<string, KubeContext>,
    authInfos: map<string, AuthInfo>,
    clusters: map<string, KubeCluster>)

  /** The current context exists and names an existing user and cluster entry. */
  predicate Resolvable(kc: Kubeconfig) {
    && kc.currentContext in kc.contexts
    && kc.contexts[kc.currentContext].authInfo in kc.authInfos
    && kc.contexts[kc.currentContext].cluster in kc.clusters
  }
}

=== FILE: auth.dfy ===
/** Request signing with a cached bearer token (RFC 6750 section 2.1).

    Time is an integer count of nanoseconds since the Unix epoch, passed in
    by the caller. The clock is read twice: once to test the cached token's
    age and, after a login, once more to stamp the new token; the login may
    take any time in between. Durations follow Go: `now - past` saturates
    at the bounds of a signed 64-bit nanosecond count. */
module Auth {
  import opened Base
  import Token

  const Minute: int := 60 * 1_000_000_000
  /** A cached token is refreshed once it is older than this. */
  const TokenTtl: int := 30 * Minute

  const MinDuration: int := -0x8000_0000_0000_0000
  const MaxDuration: int := 0x7FFF_FFFF_FFFF_FFFF

  /** Go's zero time, January 1 of year 1 UTC, which a new client holds as
      the time of its (never fetched) token. */
  const ZeroTime: int := -62_135_596_800 * 1_000_000_000

  /** The elapsed time from `past` to `now`, saturated to the duration range. */
  function Since(now: int, past: int): (d: int)
    ensures MinDuration <= d <= MaxDuration
    ensures MinDuration <= now - past <= MaxDuration ==> d == now - past
    ensures now - past > MaxDuration ==> d == MaxDuration
    ensures now - past < MinDuration ==> d == MinDuration
  {
    if now - past > MaxDuration then MaxDuration
    else if now - past < MinDuration then MinDuration
    else now - past
  }

  /** A backend client: connection settings plus the token cache. */
  datatype Client = Client(
    host: string,
    username: string,
    password: string,
    connectorId: string,
    authUrl: string,
    token: string,
    tokenTime: int)

  function NewClient(host: string, username: string, password: string, connectorId: string, authUrl: string): (c: Client)
    ensures c.host == host && c.username == username && c.password == password
    ensures c.connectorId == connectorId && c.authUrl == authUrl
    ensures c.token == "" && c.tokenTime == ZeroTime
  {
    Client(host, username, password, connectorId, authUrl, "", ZeroTime)
  }

  /** The cached token must be refreshed before signing at `now`. */
  predicate Stale(c: Client, now: int) {
    Since(now, c.tokenTime) > TokenTtl
  }

  const BearerPrefix := "Bearer "

  /** The client after the call, whether the login protocol ran, the HTTP
      requests it issued, and the Authorization header value that was set. */
  datatype Signing = Signing(client: Client, loggedIn: bool, requests: seq<Token.HttpRequest>, header: Result<string>)

  /** Signs one outgoing request at time `now`. `loggedInAt` is what the
      clock reads once a login has returned; `ex` is what the login exchange
      would yield if it ran; `setHeader` is the outcome of setting the
      header on the request. */
  function AuthenticateRequest(c: Client, now: int, loggedInAt: int, parseUrl: string -> Option<Token.Url>,
                               ex: Token.Exchange, setHeader: Result<()>): (r: Signing)
    requires now <= loggedInAt
    // a login happens exactly when the cached token is older than the TTL
    ensures r.loggedIn <==> Stale(c, now)
    ensures !r.loggedIn ==> r.requests == [] && r.client == c
    // a successful login replaces the token and stamps it with the second reading
    ensures r.loggedIn && Token.Succeeds(parseUrl(c.authUrl), ex) ==>
              r.client == c.(token := ex.login.value.body.idToken, tokenTime := loggedInAt)
    // a failed login is returned, no header is set, and the token time stays
    ensures r.loggedIn && !Token.Succeeds(parseUrl(c.authUrl), ex) ==>
              r.header.Err? && r.header.error.LoginFailed?
              && r.client == c.(token := "")
    // whenever a header is set it carries the cached token
    ensures r.header.Ok? ==> r.header.value == BearerPrefix + r.client.token
    // a failure to set the header is returned
    ensures (!r.loggedIn || Token.Succeeds(parseUrl(c.authUrl), ex)) && setHeader.Err? ==>
              r.header == Err(setHeader.error)
    ensures (!r.loggedIn || Token.Succeeds(parseUrl(c.authUrl), ex)) && setHeader.Ok? ==> r.header.Ok?
  {
    if Stale(c, now) then
      var login := Token.GetToken(c.username, c.password, c.connectorId, c.authUrl, parseUrl, ex);
      // the token field is assigned even when the login fails
      var c1 := c.(token := login.token.GetOr(""));
      match login.token
      case Err(e) => Signing(c1, true, login.requests, Err(e))
      case Ok(_) =>
        var c2 := c1.(tokenTime := loggedInAt);
        Signing(c2, true, login.requests, SetBearer(c2, setHeader))
    else
      Signing(c, false, [], SetBearer(c, setHeader))
  }

  function SetBearer(c: Client, setHeader: Result<()>): Result<string> {
    match setHeader
    case Ok(_) => Ok(BearerPrefix + c.token)
    case Err(e) => Err(e)
  }

  /** A new client logs in on its first call at any time after year 1. */
  lemma FreshClientLogsIn(host: string, username: string, password: string, connectorId: string, authUrl: string,
                          now: int, loggedInAt: int, parseUrl: string -> Option<Token.Url>, ex: Token.Exchange,
                          setHeader: Result<()>)
    requires now > ZeroTime + TokenTtl && now <= loggedInAt
    ensures AuthenticateRequest(NewClient(host, username, password, connectorId, authUrl), now, loggedInAt,
                                parseUrl, ex, setHeader).loggedIn
  {
  }

  /** After a successful login started at `t` and returned at `done`, every
      call up to exactly `done + TokenTtl` reuses the token, and one after
      that logs in again: the TTL runs from the end of the login. */
  lemma ReusedWithinTtl(c: Client, t: int, done: int, parseUrl: string -> Option<Token.Url>, ex: Token.Exchange,
                        setHeader: Result<()>, later: int, laterDone: int, ex2: Token.Exchange, setHeader2: Result<()>)
    requires Stale(c, t) && Token.Succeeds(parseUrl(c.authUrl), ex)
    requires t <= done && later <= laterDone
    ensures var first := AuthenticateRequest(c, t, done, parseUrl, ex, setHeader);
            var second := AuthenticateRequest(first.client, later, laterDone, parseUrl, ex2, setHeader2);
            && (second.loggedIn <==> later > done + TokenTtl)
            && (!second.loggedIn ==> second.client == first.client && second.requests == [])
            && (!second.loggedIn && setHeader2.Ok? ==> second.header == Ok(BearerPrefix + ex.login.value.body.idToken))
  {
  }

  /** A failed login leaves the client stale for every later call, so the
      token it cleared is never sent. */
  lemma {:induction false} FailedLoginStaysStale(c: Client, now: int, loggedInAt: int, parseUrl: string -> Option<Token.Url>,
                                                 ex: Token.Exchange, setHeader: Result<()>, later: int)
    requires Stale(c, now) && !Token.Succeeds(parseUrl(c.authUrl), ex)
    requires now <= loggedInAt && now <= later
    ensures Stale(AuthenticateRequest(c, now, loggedInAt, parseUrl, ex, setHeader).client, later)
  {
    var r := AuthenticateRequest(c, now, loggedInAt, parseUrl, ex, setHeader);
    assert r.client.tokenTime == c.tokenTime;
    SinceMonotonic(now, later, c.tokenTime);
  }

  lemma SinceMonotonic(now: int, later: int, past: int)
    requires now <= later
    ensures Since(now, past) <= Since(later, past)
  {
  }

  /** One signed call: its two clock readings and the outcomes it would meet. */
  datatype Call = Call(now: int, loggedInAt: int, ex: Token.Exchange, setHeader: Result<()>)

  /** The clock does not run backwards within a call. */
  predicate ClockForward(calls: seq<Call>) {
    forall i :: 0 <= i < |calls| ==> calls[i].now <= calls[i].loggedInAt
  }

  /** Signs a series of calls with one client and counts the logins. */
  function SignAll(c: Client, parseUrl: string -> Option<Token.Url>, calls: seq<Call>): (r: (Client, nat))
    requires ClockForward(calls)
    ensures r.1 <= |calls|
    // without a login the client comes back unchanged
    ensures r.1 == 0 ==> r.0 == c
    // a first call that finds the token stale logs in
    ensures |calls| > 0 && Stale(c, calls[0].now) ==> r.1 >= 1
    decreases |calls|
  {
    if |calls| == 0 then (c, 0)
    else
      var s := AuthenticateRequest(c, calls[0].now, calls[0].loggedInAt, parseUrl, calls[0].ex, calls[0].setHeader);
      var rest := SignAll(s.client, parseUrl, calls[1..]);
      (rest.0, rest.1 + if s.loggedIn then 1 else 0)
  }

  predicate Within(calls: seq<Call>, from: int, until: int) {
    forall i :: 0 <= i < |calls| ==> from <= calls[i].now <= until
  }

  predicate NotAfter(calls: seq<Call>, until: int) {
    forall i :: 0 <= i < |calls| ==> calls[i].now <= until
  }

  /** A token stamped at `t` serves every call made up to `t + TokenTtl`
      without another login. */
  lemma {:induction false} NoLoginWithinTtl(c: Client, parseUrl: string -> Option<Token.Url>, calls: seq<Call>)
    requires ClockForward(calls) && NotAfter(calls, c.tokenTime + TokenTtl)
    ensures SignAll(c, parseUrl, calls) == (c, 0)
    decreases |calls|
  {
    if |calls| > 0 {
      var s := AuthenticateRequest(c, calls[0].now, calls[0].loggedInAt, parseUrl, calls[0].ex, calls[0].setHeader);
      assert !s.loggedIn && s.client == c;
      assert ClockForward(calls[1..]) && NotAfter(calls[1..], c.tokenTime + TokenTtl) by {
        forall i | 0 <= i < |calls[1..]|
          ensures calls[1..][i].now <= calls[1..][i].loggedInAt
          ensures calls[1..][i].now <= c.tokenTime + TokenTtl
        {
          assert calls[1..][i] == calls[i + 1];
        }
      }
      NoLoginWithinTtl(c, parseUrl, calls[1..]);
    }
  }

  /** A series of calls spanning at most one TTL after a successful login
      logs in exactly once. */
  lemma {:induction false} OneLoginPerTtl(c: Client, parseUrl: string -> Option<Token.Url>, calls: seq<Call>)
    requires |calls| > 0 && ClockForward(calls)
    requires Stale(c, calls[0].now) && Token.Succeeds(parseUrl(c.authUrl), calls[0].ex)
    requires Within(calls, calls[0].now, calls[0].now + TokenTtl)
    ensures SignAll(c, parseUrl, calls).1 == 1
  {
    var s := AuthenticateRequest(c, calls[0].now, calls[0].loggedInAt, parseUrl, calls[0].ex, calls[0].setHeader);
    assert s.loggedIn && s.client.tokenTime == calls[0].loggedInAt >= calls[0].now;
    assert ClockForward(calls[1..]) && NotAfter(calls[1..], s.client.tokenTime + TokenTtl) by {
      forall i | 0 <= i < |calls[1..]|
        ensures calls[1..][i].now <= calls[1..][i].loggedInAt
        ensures calls[1..][i].now <= s.client.tokenTime + TokenTtl
      {
        assert calls[1..][i] == calls[i + 1];
      }
    }
    NoLoginWithinTtl(s.client, parseUrl, calls[1..]);
  }
}

=== FILE: base.dfy ===
/** Shared vocabulary: optional values, call results and the errors a
    reconciliation cycle can surface. */
module Base {

  datatype Option<+T> = None | Some(value: T)

  /** The outcome of one call into a collaborator (Kubernetes API, the
      Kubernikus backend, an HTTP exchange or a parser). */
  datatype Result<+T> = Ok(value: T) | Err(error: Error) {
    function GetOr(default: T): (v: T)
      ensures Ok? ==> v == value
      ensures Err? ==> v == default
    {
      match this
      case Ok(x) => x
      case Err(_) => default
    }

    function ErrorOption(): (e: Option<Error>)
      ensures e.Some? <==> Err?
      ensures Err? ==> e == Some(error)
    {
      match this
      case Ok(_) => None
      case Err(err) => Some(err)
    }
  }

  /** Why the login protocol gave up; see Token.GetToken. */
  datatype LoginFailure =
    | MalformedAuthUrl        // the discovery request could not be built
    | DiscoveryUnreachable    // the discovery GET failed in transport
    | DiscoveryStatus         // the discovery GET answered with status >= 400
    | NoDiscoveryRedirects    // the discovery GET was not redirected at all
    | LoginUnreachable        // the credential POST failed in transport
    | LoginStatus             // the credential POST answered with status >= 400
    | NoLoginRedirects        // the credential POST was not redirected at all
    | BodyUnreadable          // the final body could not be read
    | BodyMalformed           // the final body is not JSON of the token shape

  datatype Error =
    | NotFound                    // the Kubernetes API reports the object as absent
    | ApiFailure(reason: string)  // any other failure of a collaborator call
    | BadUrl(raw: string)         // the apiserver address does not parse as a URL
    | BadGroupVersion(raw: string) // an owner reference's apiVersion does not parse
    | LoginFailed(why: LoginFailure)

  /** A string-keyed lookup that yields "" for a missing key, as a Go map does. */
  function Lookup(m: map<string, string>, k: string): (v: string)
    ensures k in m ==> v == m[k]
    ensures k !in m ==> v == ""
  {
    if k in m then m[k] else ""
  }
}

=== FILE: controller.dfy ===
/** One reconciliation cycle of a KubernikusControlPlane.

    Every call the cycle makes into Kubernetes, the backend or a parser is
    replaced by the outcome a `Script` assigns to it. The cycle is a pure
    function from the script to the trace of steps it performed and the
    verdict it returns to the framework. */
module Controller {
  import opened Base
  import opened Api
  import opened Gateway
  import Status
  import Endpoint

  /** The threshold passed to the client-certificate rotation check:
      thirty minutes, in nanoseconds. */
  const RotationWindow: int := 30 * 60 * 1_000_000_000

  const LoginPath := "/auth/login"

  /** The API group and version the control plane resource belongs to. */
  const GroupVersion := "controlplane.cluster.x-k8s.io/v1alpha1"
  const ControlPlaneKind := "KubernikusControlPlane"

  // ---------------------------------------------------------------------
  // The connection secret

  predicate EndsWithNewline(v: string) {
    |v| > 0 && v[|v| - 1] == '\n'
  }

  /** Drops one trailing newline, if there is one. */
  function TrimNewline(v: string): (r: string)
    ensures EndsWithNewline(v) ==> r + "\n" == v
    ensures !EndsWithNewline(v) ==> r == v
  {
    if EndsWithNewline(v) then v[..|v| - 1] else v
  }

  /** The secret's values as strings, each without one trailing newline. */
  function ConvertSecret(data: map<string, string>): (r: map<string, string>)
    ensures r.Keys == data.Keys
  {
    map k | k in data :: TrimNewline(data[k])
  }

  /** Each converted value is a prefix of the original, shorter by at most
      one character; it is unchanged exactly when the original does not end
      in a newline, and otherwise it is the original without that newline. */
  lemma ConvertedValue(data: map<string, string>, k: string)
    requires k in data
    ensures k in ConvertSecret(data)
    ensures ConvertSecret(data)[k] <= data[k] && |data[k]| - |ConvertSecret(data)[k]| <= 1
    ensures ConvertSecret(data)[k] == data[k] <==> !EndsWithNewline(data[k])
    ensures ConvertSecret(data)[k] != data[k] ==> ConvertSecret(data)[k] + "\n" == data[k]
  {
  }

  /** The settings a backend client is built from; a missing key reads as "". */
  datatype ClientConfig = ClientConfig(host: string, username: string, password: string,
                                       connectorId: string, authUrl: string)

  function ClientConfigFor(conv: map<string, string>): (c: ClientConfig)
    ensures c.host == Lookup(conv, "host") && c.username == Lookup(conv, "user")
    ensures c.password == Lookup(conv, "pass") && c.connectorId == Lookup(conv, "conn")
    ensures c.authUrl == Lookup(conv, "auth") + LoginPath
  {
    ClientConfig(Lookup(conv, "host"), Lookup(conv, "user"), Lookup(conv, "pass"),
                 Lookup(conv, "conn"), Lookup(conv, "auth") + LoginPath)
  }

  // ---------------------------------------------------------------------
  // The owner cluster

  /** The kind and API group an owner reference must carry to name the
      owning Cluster. */
  const ClusterKind := "Cluster"
  const ClusterGroup := "cluster.x-k8s.io"

  function SlashCount(v: string): nat {
    if |v| == 0 then 0 else (if v[0] == '/' then 1 else 0) + SlashCount(v[1..])
  }

  /** The characters of `v` before its first slash. */
  function BeforeSlash(v: string): (p: string)
    ensures p <= v && '/' !in p
    ensures |p| < |v| ==> v[|p|] == '/'
  {
    if |v| == 0 || v[0] == '/' then [] else [v[0]] + BeforeSlash(v[1..])
  }

  /** The group of an apiVersion string: "" when it has no slash, the part
      before the slash when it has one, and no group at all (a parse error)
      when it has more. */
  function GroupOf(apiVersion: string): (g: Option<string>)
    ensures g.Some? ==> g.value <= apiVersion && '/' !in g.value
    ensures g.None? <==> SlashCount(apiVersion) > 1
  {
    if SlashCount(apiVersion) == 0 then Some("")
    else if SlashCount(apiVersion) == 1 then Some(BeforeSlash(apiVersion))
    else None
  }

  /** Where the owning Cluster is looked up. */
  datatype OwnerTarget =
    | ClusterNamed(key: ObjectKey)  // fetch the Cluster stored under this key
    | BadApiVersion(raw: string)    // a Cluster reference whose apiVersion does not parse
    | NoClusterOwner                // no reference names a Cluster of the Cluster API group

  /** A reference the lookup passes over: not of kind Cluster, or of a
      parsable apiVersion in another group. */
  predicate Skipped(ref: OwnerRef) {
    ref.kind != ClusterKind || (GroupOf(ref.apiVersion).Some? && GroupOf(ref.apiVersion).value != ClusterGroup)
  }

  /** Scans the references in order: the first one of kind Cluster decides
      if its apiVersion does not parse or is in the Cluster API group; the
      Cluster is then looked up by the reference's name in `namespace`. */
  function FindOwnerCluster(namespace: string, refs: seq<OwnerRef>): (r: OwnerTarget)
    ensures r.ClusterNamed? ==> r.key.namespace == namespace
  {
    if |refs| == 0 then NoClusterOwner
    else if Skipped(refs[0]) then FindOwnerCluster(namespace, refs[1..])
    else if GroupOf(refs[0].apiVersion).None? then BadApiVersion(refs[0].apiVersion)
    else ClusterNamed(ObjectKey(namespace, refs[0].name))
  }

  /** The owner lookup of a control plane, in the control plane's namespace. */
  function OwnerClusterOf(kcp: ControlPlane): OwnerTarget {
    FindOwnerCluster(kcp.key.namespace, kcp.ownerRefs)
  }

  /** Reference `i` is the first one the lookup does not pass over. */
  predicate FirstDecisive(refs: seq<OwnerRef>, i: int) {
    0 <= i < |refs| && !Skipped(refs[i]) && forall j :: 0 <= j < i ==> Skipped(refs[j])
  }

  /** The lookup finds nothing exactly when it passes over every reference,
      and otherwise the first reference it cannot pass over decides: a parse
      error for its apiVersion, or the Cluster of its name. */
  lemma {:induction false} OwnerLookup(namespace: string, refs: seq<OwnerRef>, i: int)
    ensures FindOwnerCluster(namespace, refs).NoClusterOwner? <==> forall j :: 0 <= j < |refs| ==> Skipped(refs[j])
    ensures FirstDecisive(refs, i) && GroupOf(refs[i].apiVersion).None? ==>
              FindOwnerCluster(namespace, refs) == BadApiVersion(refs[i].apiVersion)
    ensures FirstDecisive(refs, i) && GroupOf(refs[i].apiVersion).Some? ==>
              FindOwnerCluster(namespace, refs) == ClusterNamed(ObjectKey(namespace, refs[i].name))
    decreases |refs|
  {
    if |refs| > 0 {
      var rest := refs[1..];
      OwnerLookup(namespace, rest, i - 1);
      if FirstDecisive(refs, i) && i > 0 {
        assert FirstDecisive(rest, i - 1) by {
          forall j | 0 <= j < i - 1 ensures Skipped(rest[j]) {
            assert rest[j] == refs[j + 1];
          }
        }
      }
      assert (forall j :: 0 <= j < |refs| ==> Skipped(refs[j]))
         <==> Skipped(refs[0]) && forall j :: 0 <= j < |rest| ==> Skipped(rest[j]) by {
        if Skipped(refs[0]) && forall j :: 0 <= j < |rest| ==> Skipped(rest[j]) {
          forall j | 0 <= j < |refs| ensures Skipped(refs[j]) {
            if j > 0 { assert refs[j] == rest[j - 1]; }
          }
        }
      }
    }
  }

  /** An apiVersion written as group, slash, version has that group; one
      without a slash is in the core group "". */
  lemma GroupVersionSplit(group: string, version: string)
    requires '/' !in group && '/' !in version
    ensures GroupOf(group + "/" + version) == Some(group)
    ensures GroupOf(version) == Some("")
  {
    var rest := "/" + version;
    assert group + "/" + version == group + rest;
    NoSlashCount(group);
    NoSlashCount(version);
    SlashCountAppend(group, rest);
    assert SlashCount(rest) == 1 + SlashCount(version) by {
      assert rest[1..] == version;
    }
    PrefixBeforeSlash(group, rest);
  }

  lemma {:induction false} NoSlashCount(v: string)
    requires '/' !in v
    ensures SlashCount(v) == 0
    decreases |v|
  {
    if |v| > 0 {
      NoSlashCount(v[1..]);
    }
  }

  lemma {:induction false} SlashCountAppend(a: string, b: string)
    ensures SlashCount(a + b) == SlashCount(a) + SlashCount(b)
    decreases |a|
  {
    if |a| > 0 {
      assert (a + b)[1..] == a[1..] + b;
      SlashCountAppend(a[1..], b);
    } else {
      assert a + b == b;
    }
  }

  lemma {:induction false} PrefixBeforeSlash(a: string, b: string)
    requires '/' !in a && |b| > 0 && b[0] == '/'
    ensures BeforeSlash(a + b) == a
    decreases |a|
  {
    if |a| > 0 {
      assert (a + b)[1..] == a[1..] + b;
      PrefixBeforeSlash(a[1..], b);
    } else {
      assert a + b == b;
    }
  }

  // ---------------------------------------------------------------------
  // Derived credentials

  /** The API version of the Cluster resource. */
  const ClusterApiVersion := ClusterGroup + "/v1beta1"

  /** The owner reference Cluster API puts on a cluster's kubeconfig
      secret: the Cluster itself, with neither flag set. */
  function ClusterOwner(cluster: Cluster): (o: OwnerRef)
    ensures o.apiVersion == ClusterApiVersion && o.kind == ClusterKind
    ensures o.name == cluster.key.name && o.uid == cluster.uid
    ensures o.controller.None? && o.blockOwnerDeletion.None?
  {
    OwnerRef(ClusterApiVersion, ClusterKind, cluster.key.name, cluster.uid, None, None)
  }

  /** The kubeconfig secret generated for a cluster from kubeconfig text. */
  function GenerateKubeconfigSecret(cluster: Cluster, text: string): (k: KubeconfigSecret)
    ensures k.cluster == cluster.key && k.value == text
    ensures k.owner == ClusterOwner(cluster)
  {
    KubeconfigSecret(cluster.key, text, ClusterOwner(cluster))
  }

  /** The owner reference on a generated kubeconfig secret is one the owner
      lookup follows back to the same Cluster. */
  lemma ClusterOwnerFollowed(cluster: Cluster)
    ensures FindOwnerCluster(cluster.key.namespace, [ClusterOwner(cluster)]) == ClusterNamed(cluster.key)
  {
    GroupVersionSplit(ClusterGroup, "v1beta1");
    assert ClusterApiVersion == ClusterGroup + "/" + "v1beta1";
  }

  /** The owner reference put on the certificate secrets: the control
      plane itself, neither controller nor blocking deletion. */
  function CertificateOwner(kcp: ControlPlane): (o: OwnerRef)
    ensures o.apiVersion == GroupVersion
    ensures o.kind == ControlPlaneKind && o.name == kcp.key.name && o.uid == kcp.uid
    ensures o.controller == Some(false) && o.blockOwnerDeletion == Some(false)
  {
    OwnerRef(GroupVersion, ControlPlaneKind, kcp.key.name, kcp.uid, Some(false), Some(false))
  }

  /** The service-account and cluster-CA certificates taken from the
      kubeconfig's current context and the key of the CA secret. */
  function DerivedCertificates(kc: Kubeconfig, ca: map<string, string>): (certs: seq<Certificate>)
    requires Resolvable(kc)
    ensures |certs| == 2
    ensures certs[0].purpose == ServiceAccount && certs[1].purpose == ClusterCA
    ensures forall i :: 0 <= i < 2 ==> certs[i].external && certs[i].generated
    ensures var ctx := kc.contexts[kc.currentContext];
            && certs[0].cert == kc.authInfos[ctx.authInfo].clientCertificateData
            && certs[0].key == kc.authInfos[ctx.authInfo].clientKeyData
            && certs[1].cert == kc.clusters[ctx.cluster].certificateAuthorityData
            && certs[1].key == Lookup(ca, "tls.key")
  {
    var ctx := kc.contexts[kc.currentContext];
    var user := kc.authInfos[ctx.authInfo];
    [Certificate(ServiceAccount, user.clientCertificateData, user.clientKeyData, true, true),
     Certificate(ClusterCA, kc.clusters[ctx.cluster].certificateAuthorityData, Lookup(ca, "tls.key"), true, true)]
  }

  // ---------------------------------------------------------------------
  // Scripts, steps and cycles

  /** The outcome of every call a cycle can make, in the order they can
      happen. Writes have outcome `Ok(())` when they succeed. */
  datatype Script = Script(
    controlPlane: Result<ControlPlane>,
    owner: Result<Cluster>,
    connectionSecret: Result<map<string, string>>,
    ensureList: Result<seq<Kluster>>,
    ensureCreate: Result<Kluster>,
    statusList: Result<seq<Kluster>>,
    statusWrite: Result<()>,
    show: Result<Kluster>,
    clusterUpdate: Result<()>,
    kubeconfigSecret: Result<KubeconfigSecret>,
    credentials: Result<string>,
    kubeconfigCreate: Result<()>,
    kubeconfigLoad: Result<Kubeconfig>,
    // the `stringData` of the kubeadm secret once fetched and decoded from
    // YAML; a failure of the fetch or of the decode is the error
    caSecret: Result<map<string, string>>,
    certificateSave: Result<()>,
    rotation: Result<bool>,
    rotationCredentials: Result<string>,
    kubeconfigUpdate: Result<()>)

  /** The script's outcome for the owner lookup agrees with where the
      lookup goes: the Cluster fetched is the one stored under the looked-up
      key, and an unparsable apiVersion is the lookup's error. A control
      plane with owner references but no Cluster among them is excluded:
      the lookup then returns no Cluster and no error, and the cycle
      dereferences the missing Cluster. */
  predicate OwnerAnswers(target: OwnerTarget, owner: Result<Cluster>) {
    match target
    case ClusterNamed(key) => owner.Ok? ==> owner.value.key == key
    case BadApiVersion(raw) => owner == Err(BadGroupVersion(raw))
    case NoClusterOwner => false
  }

  /** A kubeconfig that loads, once the CA secret is also at hand, has a
      resolvable current context: the cycle reads its entries without
      checking that they exist. */
  predicate KubeconfigResolves(s: Script) {
    s.kubeconfigLoad.Ok? && s.caSecret.Ok? ==> Resolvable(s.kubeconfigLoad.value)
  }

  /** The scripts a cycle can meet without crashing. */
  predicate WellFormed(s: Script) {
    && (s.controlPlane.Ok? && |s.controlPlane.value.ownerRefs| > 0 ==>
          OwnerAnswers(OwnerClusterOf(s.controlPlane.value), s.owner))
    && KubeconfigResolves(s)
  }

  /** Which part of the cycle a backend call belongs to. */
  datatype Stage = Ensure | Observe | Publish | Provision | Rotate

  datatype Step =
    | GetObject(key: ObjectKey)
    | GetOwner(target: OwnerTarget)
    | GetConnectionSecret(key: ObjectKey)
    | UseBackend(config: ClientConfig)
    | Remote(stage: Stage, call: RemoteCall)
    | WriteStatus(status: ControlPlaneStatus)
    | ParseApiserver(raw: string)
    | UpdateOwner(cluster: Cluster)
    | GetKubeconfigSecret(key: ObjectKey)
    | CreateKubeconfigSecret(secret: KubeconfigSecret)
    | LoadKubeconfig(text: string)
    | SaveCertificates(certs: seq<Certificate>, owner: OwnerRef, under: ObjectKey)
    | CheckRotation(secret: KubeconfigSecret, window: int)
    | UpdateKubeconfigSecret(secret: KubeconfigSecret)

  /** What a cycle tells the framework: finished, try again later, or failed. */
  datatype Verdict = Done | Requeue | Failed(error: Error)

  datatype Cycle = Cycle(trace: seq<Step>, verdict: Verdict)

  function Then(steps: seq<Step>, rest: Cycle): Cycle {
    Cycle(steps + rest.trace, rest.verdict)
  }

  /** Ends the cycle after `steps`: failed with the error of `outcome`, if any. */
  function Stop(steps: seq<Step>, outcome: Option<Error>): Cycle {
    Cycle(steps, match outcome case None => Done case Some(e) => Failed(e))
  }

  function RemoteSteps(stage: Stage, calls: seq<RemoteCall>): (steps: seq<Step>)
    ensures |steps| == |calls|
    ensures forall i :: 0 <= i < |calls| ==> steps[i] == Remote(stage, calls[i])
  {
    if |calls| == 0 then [] else [Remote(stage, calls[0])] + RemoteSteps(stage, calls[1..])
  }

  // ---------------------------------------------------------------------
  // The cycle

  function Reconcile(req: ObjectKey, s: Script, hostOf: string -> Option<string>): (c: Cycle)
    requires WellFormed(s)
    // every cycle starts by reading the requested object
    ensures |c.trace| > 0 && c.trace[0] == GetObject(req)
  {
    var t := [GetObject(req)];
    match s.controlPlane
    case Err(e) => Cycle(t, if e.NotFound? then Done else Failed(e))
    case Ok(kcp) =>
      if |kcp.ownerRefs| == 0 then Cycle(t, Requeue)
      else
        var t1 := [GetObject(req), GetOwner(OwnerClusterOf(kcp))];
        match s.owner
        case Err(e) => Cycle(t1, if e.NotFound? then Done else Failed(e))
        case Ok(cluster) => Then(t1, Connect(kcp, cluster, s, hostOf))
  }

  /** Read the connection secret and build the backend client from it. */
  function Connect(kcp: ControlPlane, cluster: Cluster, s: Script, hostOf: string -> Option<string>): Cycle
    requires KubeconfigResolves(s)
  {
    var t := [GetConnectionSecret(cluster.key)];
    match s.connectionSecret
    case Err(e) => Cycle(t, Failed(e))
    case Ok(data) => Then(t, EnsureRemote(kcp, cluster, ClientConfigFor(ConvertSecret(data)), s, hostOf))
  }

  /** Make sure the backend holds a cluster for the control plane. */
  function EnsureRemote(kcp: ControlPlane, cluster: Cluster, config: ClientConfig,
                        s: Script, hostOf: string -> Option<string>): Cycle
    requires KubeconfigResolves(s)
  {
    var ensured := EnsureControlPlane(kcp, s.ensureList, s.ensureCreate);
    var t := [UseBackend(config)] + RemoteSteps(Ensure, ensured.calls);
    match ensured.err
    case Some(e) => Cycle(t, Failed(e))
    case None => Then(t, ObserveStatus(kcp, cluster, s, hostOf))
  }

  /** Fetch the status, then persist it and act on it. */
  function ObserveStatus(kcp: ControlPlane, cluster: Cluster, s: Script, hostOf: string -> Option<string>): Cycle
    requires KubeconfigResolves(s)
  {
    var t := [Remote(Observe, ListKlusters)];
    match Status.GetStatus(kcp, s.statusList)
    case Err(e) => Cycle(t, Failed(e))
    case Ok(status) => Then(t, PersistStatus(kcp, cluster, status, s, hostOf))
  }

  /** Persist the fetched status, then publish the endpoint and manage credentials. */
  function PersistStatus(kcp: ControlPlane, cluster: Cluster, status: ControlPlaneStatus,
                         s: Script, hostOf: string -> Option<string>): Cycle
    requires KubeconfigResolves(s)
  {
    var t := [WriteStatus(status)];
    match s.statusWrite
    case Err(e) => Cycle(t, Failed(e))
    case Ok(_) =>
      var published := PublishEndpoint(kcp, cluster, status, s, hostOf);
      if published.verdict.Failed? then Then(t, published)
      else Then(t + published.trace, ManageCredentials(kcp, cluster, status, s))
  }

  /** Sets the owner's endpoint when the status is ready and none is recorded. */
  function PublishEndpoint(kcp: ControlPlane, cluster: Cluster, status: ControlPlaneStatus,
                           s: Script, hostOf: string -> Option<string>): Cycle
  {
    if status.ready && cluster.endpoint.host == "" then
      var derived := Endpoint.GetEndpoint(kcp, s.show, hostOf);
      var t := [Remote(Publish, derived.call)];
      match s.show
      case Err(e) => Cycle(t, Failed(e))
      case Ok(k) =>
        var t1 := t + [ParseApiserver(k.status.apiserver)];
        match derived.endpoint
        case Err(e) => Cycle(t1, Failed(e))
        case Ok(ep) => Stop(t1 + [UpdateOwner(cluster.(endpoint := ep))], s.clusterUpdate.ErrorOption())
    else Cycle([], Done)
  }

  /** When ready: create the kubeconfig and certificate secrets if the
      kubeconfig secret is absent, then rotate the kubeconfig if due. */
  function ManageCredentials(kcp: ControlPlane, cluster: Cluster, status: ControlPlaneStatus, s: Script): Cycle
    requires KubeconfigResolves(s)
  {
    if !status.ready then Cycle([], Done)
    else
      var t := [GetKubeconfigSecret(cluster.key)];
      match s.kubeconfigSecret
      case Ok(existing) => Then(t, RotateKubeconfig(kcp, cluster, existing, s))
      case Err(e) =>
        if e.NotFound? then Then(t, ProvisionCredentials(kcp, cluster, s))
        else Cycle(t, Failed(e))
  }

  /** Fetch the kubeconfig and store it as the kubeconfig secret. */
  function ProvisionCredentials(kcp: ControlPlane, cluster: Cluster, s: Script): Cycle
    requires KubeconfigResolves(s)
  {
    var t := [Remote(Provision, GetKlusterCredentials(kcp.key.name))];
    match s.credentials
    case Err(e) => Cycle(t, Failed(e))
    case Ok(text) =>
      var secret := GenerateKubeconfigSecret(cluster, text);
      var t1 := t + [CreateKubeconfigSecret(secret)];
      match s.kubeconfigCreate
      case Err(e) => Cycle(t1, Failed(e))
      case Ok(_) => Then(t1, ProvisionCertificates(kcp, cluster, text, secret, s))
  }

  /** Derive the two certificates from the kubeconfig and the CA secret,
      save them, then check the new kubeconfig secret for rotation. */
  function ProvisionCertificates(kcp: ControlPlane, cluster: Cluster, text: string,
                                 secret: KubeconfigSecret, s: Script): Cycle
    requires KubeconfigResolves(s)
  {
    var t := [LoadKubeconfig(text)];
    match s.kubeconfigLoad
    case Err(e) => Cycle(t, Failed(e))
    case Ok(kc) =>
      var t1 := t + [Remote(Provision, GetKubeadmSecret(kcp.key.name))];
      match s.caSecret
      case Err(e) => Cycle(t1, Failed(e))
      case Ok(ca) =>
        Then(t1, SaveAndRotate(kcp, cluster, secret, DerivedCertificates(kc, ca), s))
  }

  function SaveAndRotate(kcp: ControlPlane, cluster: Cluster, secret: KubeconfigSecret,
                         certs: seq<Certificate>, s: Script): Cycle
  {
    var t := [SaveCertificates(certs, CertificateOwner(kcp), cluster.key)];
    match s.certificateSave
    case Err(e) => Cycle(t, Failed(e))
    case Ok(_) => Then(t, RotateKubeconfig(kcp, cluster, secret, s))
  }

  function RotateKubeconfig(kcp: ControlPlane, cluster: Cluster, secret: KubeconfigSecret, s: Script): Cycle {
    var t := [CheckRotation(secret, RotationWindow)];
    match s.rotation
    case Err(e) => Cycle(t, Failed(e))
    case Ok(due) =>
      if !due then Cycle(t, Done)
      else
        var t1 := t + [Remote(Rotate, GetKlusterCredentials(kcp.key.name))];
        match s.rotationCredentials
        case Err(e) => Cycle(t1, Failed(e))
        case Ok(text) =>
          Stop(t1 + [UpdateKubeconfigSecret(GenerateKubeconfigSecret(cluster, text))],
               s.kubeconfigUpdate.ErrorOption())
  }
}

=== FILE: endpoint.dfy ===
/** Derivation of the control plane endpoint from the backend's record.
    Parsing the apiserver address is an uninterpreted partial function
    `hostOf` that yields the host of the URL with any port removed, or None
    when the address does not parse. */
module Endpoint {
  import opened Base
  import opened Api
  import opened Gateway

  /** The port every published endpoint carries. */
  const ApiPort: int := 443

  /** The show call for `cp`, and the endpoint derived from its answer. */
  datatype Derived = Derived(call: RemoteCall, endpoint: Result<ApiEndpoint>)

  function GetEndpoint(cp: ControlPlane, show: Result<Kluster>, hostOf: string -> Option<string>): (r: Derived)
    // the record is looked up by the control plane's name
    ensures r.call == ShowKluster(cp.key.name)
    // a failed show is returned as is
    ensures show.Err? ==> r.endpoint == Err(show.error)
    // an apiserver address that does not parse is returned as an error
    ensures show.Ok? && hostOf(show.value.status.apiserver).None? ==>
              r.endpoint == Err(BadUrl(show.value.status.apiserver))
    // success exactly when both succeed; the host is the parsed one
    ensures r.endpoint.Ok? <==> show.Ok? && hostOf(show.value.status.apiserver).Some?
    ensures r.endpoint.Ok? ==> r.endpoint.value.host == hostOf(show.value.status.apiserver).value
    // whatever the address says, the port is 443
    ensures r.endpoint.Ok? ==> r.endpoint.value.port == ApiPort
  {
    var call := ShowKluster(cp.key.name);
    match show
    case Err(e) => Derived(call, Err(e))
    case Ok(k) =>
      match hostOf(k.status.apiserver)
      case None => Derived(call, Err(BadUrl(k.status.apiserver)))
      case Some(h) => Derived(call, Ok(ApiEndpoint(h, ApiPort)))
  }

  /** The port does not depend on the address at all: two records whose
      addresses parse to the same host give the same endpoint. */
  lemma EndpointDependsOnHostOnly(cp: ControlPlane, a: Kluster, b: Kluster, hostOf: string -> Option<string>)
    requires hostOf(a.status.apiserver).Some?
    requires hostOf(a.status.apiserver) == hostOf(b.status.apiserver)
    ensures GetEndpoint(cp, Ok(a), hostOf) == GetEndpoint(cp, Ok(b), hostOf)
  {
  }
}

=== FILE: gateway.dfy ===
/** The Kubernikus backend as the controller sees it: cluster records
    ("klusters"), the remote operations, and the create-if-absent step. */
module Gateway {
  import opened Base
  import opened Api

  /** A kluster's lifecycle phase; `NoPhase` is the empty phase a zero-valued
      status holds. */
  datatype Phase = NoPhase | Pending | Creating | Running | Terminating | Upgrading

  /** The payload spec of a kluster; fields the Go payload leaves nil are None. */
  datatype KlusterSpec = KlusterSpec(
    name: string,
    version: string,
    noCloud: bool,
    backup: string,
    dashboard: Option<bool>,
    dex: Option<bool>,
    serviceCidr: string,
    clusterCidr: string,
    advertiseAddress: string,
    advertisePort: int,
    customCni: bool,
    seedKubeadm: bool,
    dnsAddress: string,
    dnsDomain: string,
    sshPublicKey: string,
    oidc: Option<Oidc>)

  datatype KlusterStatus = KlusterStatus(phase: Phase, apiserverVersion: string, apiserver: string)

  datatype Kluster = Kluster(name: string, spec: KlusterSpec, status: KlusterStatus)

  /** The zero values every payload field starts from. */
  const EmptySpec := KlusterSpec("", "", false, "", None, None, "", "", "", 0, false, false, "", "", "", None)
  const EmptyStatus := KlusterStatus(NoPhase, "", "")

  /** The operations of the backend API the controller can issue. */
  datatype RemoteCall =
    | ListKlusters
    | ShowKluster(name: string)
    | CreateKluster(body: Kluster)
    | UpdateKluster(name: string, body: Kluster)
    | GetKlusterCredentials(name: string)
    | GetKubeadmSecret(name: string)

  /** The index of the first record named `name`, if there is one. */
  function FirstNamed(ks: seq<Kluster>, name: string): (r: Option<nat>)
    ensures r.Some? ==> r.value < |ks| && ks[r.value].name == name
  {
    if |ks| == 0 then None
    else if ks[0].name == name then Some(0)
    else
      match FirstNamed(ks[1..], name)
      case None => None
      case Some(i) => Some(i + 1)
  }

  /** No record is named `name`. */
  predicate NoneNamed(ks: seq<Kluster>, name: string) {
    forall j :: 0 <= j < |ks| ==> ks[j].name != name
  }

  /** `i` is the position of the first record named `name`. */
  predicate IsFirstNamed(ks: seq<Kluster>, name: string, i: int) {
    0 <= i < |ks| && ks[i].name == name && NoneNamed(ks[..i], name)
  }

  /** FirstNamed finds nothing exactly when no record has the name, and
      otherwise finds the first one that has it. */
  lemma {:induction false} FirstNamedFinds(ks: seq<Kluster>, name: string)
    ensures FirstNamed(ks, name).None? <==> NoneNamed(ks, name)
    ensures FirstNamed(ks, name).Some? ==> IsFirstNamed(ks, name, FirstNamed(ks, name).value)
    decreases |ks|
  {
    if |ks| > 0 && ks[0].name != name {
      var tail := ks[1..];
      FirstNamedFinds(tail, name);
      assert NoneNamed(ks, name) <==> NoneNamed(tail, name) by {
        assert forall j :: 0 <= j < |tail| ==> tail[j] == ks[j + 1];
        if NoneNamed(tail, name) {
          forall j | 0 <= j < |ks|
            ensures ks[j].name != name
          {
            if j > 0 {
              assert ks[j] == tail[j - 1];
            }
          }
        }
      }
      if FirstNamed(tail, name).Some? {
        var i := FirstNamed(tail, name).value;
        var before := ks[..i + 1];
        forall j | 0 <= j < |before|
          ensures before[j].name != name
        {
          if j > 0 {
            assert before[j] == tail[..i][j - 1];
          }
        }
      }
    } else if |ks| > 0 {
      assert !NoneNamed(ks, name);
    }
  }

  /** Any position whose record has the name and whose predecessors do not
      is the one FirstNamed finds. */
  lemma FirstNamedUnique(ks: seq<Kluster>, name: string, i: int)
    requires IsFirstNamed(ks, name, i)
    ensures FirstNamed(ks, name) == Some(i)
  {
    FirstNamedFinds(ks, name);
  }

  /** The create payload: name and version from the control plane, four
      fixed settings, and nothing else. */
  function BuildKluster(cp: ControlPlane): (k: Kluster)
    ensures k.name == cp.key.name && k.spec.version == cp.spec.version
    ensures k.spec.noCloud && k.spec.backup == "off"
    ensures k.spec.dashboard == Some(false) && k.spec.dex == Some(false)
    ensures k.spec.(version := "", noCloud := false, backup := "", dashboard := None, dex := None) == EmptySpec
    ensures k.status == EmptyStatus
  {
    Kluster(cp.key.name,
            EmptySpec.(noCloud := true, version := cp.spec.version, backup := "off",
                       dashboard := Some(false), dex := Some(false)),
            EmptyStatus)
  }

  /** No spec field other than the version reaches the payload. */
  lemma PayloadIgnoresSpec(a: ControlPlane, b: ControlPlane)
    requires a.key.name == b.key.name && a.spec.version == b.spec.version
    ensures BuildKluster(a) == BuildKluster(b)
  {
  }

  /** The calls issued and the error returned, if any. */
  datatype Ensured = Ensured(calls: seq<RemoteCall>, err: Option<Error>)

  /** Lists the klusters and creates one for `cp` unless a record of that
      name exists. `list` and `create` are the outcomes the two calls meet. */
  function EnsureControlPlane(cp: ControlPlane, list: Result<seq<Kluster>>, create: Result<Kluster>): (r: Ensured)
    // the list call always comes first; a failure of it ends the step
    ensures 1 <= |r.calls| <= 2 && r.calls[0] == ListKlusters
    ensures list.Err? ==> r == Ensured([ListKlusters], Some(list.error))
    // a listed backend answers with no error or with one create, whose error is returned
    ensures list.Ok? && |r.calls| == 1 ==> r.err.None?
    ensures |r.calls| == 2 ==>
              list.Ok? && r.calls[1] == CreateKluster(BuildKluster(cp)) && r.err == create.ErrorOption()
  {
    match list
    case Err(e) => Ensured([ListKlusters], Some(e))
    case Ok(ks) =>
      if FirstNamed(ks, cp.key.name).Some? then Ensured([ListKlusters], None)
      else Ensured([ListKlusters, CreateKluster(BuildKluster(cp))], create.ErrorOption())
  }

  /** A create is issued exactly when no listed record has the control
      plane's name; an existing record means no further call and no error. */
  lemma {:induction false} CreateIffAbsent(cp: ControlPlane, ks: seq<Kluster>, create: Result<Kluster>)
    ensures var r := EnsureControlPlane(cp, Ok(ks), create);
            && (NoneNamed(ks, cp.key.name) <==> r.calls == [ListKlusters, CreateKluster(BuildKluster(cp))])
            && (!NoneNamed(ks, cp.key.name) <==> r == Ensured([ListKlusters], None))
  {
    FirstNamedFinds(ks, cp.key.name);
  }

  /** No path updates an existing record. */
  lemma NeverUpdates(cp: ControlPlane, list: Result<seq<Kluster>>, create: Result<Kluster>)
    ensures var r := EnsureControlPlane(cp, list, create);
            forall i :: 0 <= i < |r.calls| ==> !r.calls[i].UpdateKluster?
  {
  }

  /** A backend whose list call answers with `records`, whose create call
      either fails or stores the payload, and the calls one ensure issued. */
  function EnsureAgainst(records: seq<Kluster>, cp: ControlPlane, createFailure: Option<Error>): (r: (seq<Kluster>, Ensured))
  {
    var create := match createFailure
                  case None => Ok(BuildKluster(cp))
                  case Some(e) => Err(e);
    var o := EnsureControlPlane(cp, Ok(records), create);
    if |o.calls| == 2 && createFailure.None? then (records + [BuildKluster(cp)], o) else (records, o)
  }

  function CreateCount(calls: seq<RemoteCall>): (n: nat)
    ensures n <= |calls|
  {
    if |calls| == 0 then 0 else (if calls[0].CreateKluster? then 1 else 0) + CreateCount(calls[1..])
  }

  /** The step is idempotent: once an ensure succeeded, a repeated one only
      lists, leaves the records alone, and the two together created at most once. */
  lemma EnsureIdempotent(records: seq<Kluster>, cp: ControlPlane, f1: Option<Error>, f2: Option<Error>)
    requires EnsureAgainst(records, cp, f1).1.err.None?
    ensures var (after, first) := EnsureAgainst(records, cp, f1);
            var (again, second) := EnsureAgainst(after, cp, f2);
            && second == Ensured([ListKlusters], None)
            && again == after
            && CreateCount(first.calls) + CreateCount(second.calls) <= 1
  {
    var (after, first) := EnsureAgainst(records, cp, f1);
    FirstNamedFinds(records, cp.key.name);
    if FirstNamed(records, cp.key.name).Some? {
      assert after == records;
    } else {
      assert after == records + [BuildKluster(cp)];
      assert after[|records|].name == cp.key.name;
    }
    FirstNamedFinds(after, cp.key.name);
    assert CreateCount([ListKlusters]) == 0 by {
      assert [ListKlusters][1..] == [];
    }
    assert CreateCount(first.calls) <= 1 by {
      if |first.calls| == 2 {
        assert first.calls[1..][1..] == [];
      }
    }
  }

  predicate UniqueNames(ks: seq<Kluster>) {
    forall i, j :: 0 <= i < j < |ks| ==> ks[i].name != ks[j].name
  }

  /** A backend changed only by ensure keeps at most one record per name. */
  lemma EnsureKeepsNamesUnique(records: seq<Kluster>, cp: ControlPlane, f: Option<Error>)
    requires UniqueNames(records)
    ensures UniqueNames(EnsureAgainst(records, cp, f).0)
  {
    FirstNamedFinds(records, cp.key.name);
  }
}

=== FILE: gating.dfy ===
/** What a cycle persists and how its later parts are gated: the status it
    writes is the one it just fetched, the endpoint is published only for a
    ready control plane without one, credentials are handled only when
    ready, an existing kubeconfig secret is reused, and a rotation only
    follows a positive rotation check. */
module Gating {
  import opened Base
  import opened Api
  import opened Gateway
  import Status
  import Endpoint
  import opened Controller
  import opened ReconcileProps

  // ---------------------------------------------------------------------
  // The common front of every cycle that gets as far as writing a status

  /** Every call before the status write succeeded. */
  predicate Proceeds(s: Script) {
    && s.controlPlane.Ok?
    && |s.controlPlane.value.ownerRefs| > 0
    && s.owner.Ok?
    && s.connectionSecret.Ok?
    && EnsureControlPlane(s.controlPlane.value, s.ensureList, s.ensureCreate).err.None?
    && Status.GetStatus(s.controlPlane.value, s.statusList).Ok?
  }

  function Observed(s: Script): ControlPlaneStatus
    requires Proceeds(s)
  {
    Status.GetStatus(s.controlPlane.value, s.statusList).value
  }

  /** The steps up to and including the status list of such a cycle. */
  function Front(req: ObjectKey, s: Script): seq<Step>
    requires Proceeds(s)
  {
    var kcp := s.controlPlane.value;
    [GetObject(req), GetOwner(OwnerClusterOf(kcp))]
    + ([GetConnectionSecret(s.owner.value.key)]
       + (([UseBackend(ClientConfigFor(ConvertSecret(s.connectionSecret.value)))]
           + RemoteSteps(Ensure, EnsureControlPlane(kcp, s.ensureList, s.ensureCreate).calls))
          + [Remote(Observe, ListKlusters)]))
  }

  lemma FrontBelow(req: ObjectKey, s: Script)
    requires Proceeds(s)
    ensures forall x :: x in Front(req, s) ==> Rank(x) < 7
  {
    var kcp := s.controlPlane.value;
    var calls := EnsureControlPlane(kcp, s.ensureList, s.ensureCreate).calls;
    var steps := RemoteSteps(Ensure, calls);
    forall x | x in steps
      ensures Rank(x) <= 5
    {
      var i :| 0 <= i < |steps| && steps[i] == x;
      assert x == Remote(Ensure, calls[i]);
    }
  }

  lemma {:induction false} AllAbove(t: seq<Step>, k: int)
    requires Chain(t) && StartsAbove(t, k)
    ensures forall x :: x in t ==> k < Rank(x)
  {
    ChainOrdered(t);
    forall x | x in t
      ensures k < Rank(x)
    {
      var i :| 0 <= i < |t| && t[i] == x;
      if i > 0 {
        assert Rank(t[0]) < Rank(t[i]);
      }
    }
  }

  lemma {:induction false} AllAtMost(t: seq<Step>, n: int)
    requires Chain(t) && EndsAtMost(t, n)
    ensures forall x :: x in t ==> Rank(x) <= n
  {
    ChainOrdered(t);
    forall x | x in t
      ensures Rank(x) <= n
    {
      var i :| 0 <= i < |t| && t[i] == x;
      if i < |t| - 1 {
        assert Rank(t[i]) < Rank(t[|t| - 1]);
      }
    }
  }

  lemma ThenThen(p: seq<Step>, q: seq<Step>, rest: Cycle)
    ensures Then(p, Then(q, rest)) == Then(p + q, rest)
  {
    assert p + (q + rest.trace) == (p + q) + rest.trace;
  }

  lemma ReconcileSplit(req: ObjectKey, s: Script, hostOf: string -> Option<string>)
    requires WellFormed(s) && s.controlPlane.Ok? && |s.controlPlane.value.ownerRefs| > 0 && s.owner.Ok?
    ensures Reconcile(req, s, hostOf)
            == Then([GetObject(req), GetOwner(OwnerClusterOf(s.controlPlane.value))], Connect(s.controlPlane.value, s.owner.value, s, hostOf))
  {
  }

  lemma ConnectSplit(kcp: ControlPlane, cluster: Cluster, s: Script, hostOf: string -> Option<string>)
    requires WellFormed(s) && s.connectionSecret.Ok?
    ensures Connect(kcp, cluster, s, hostOf)
            == Then([GetConnectionSecret(cluster.key)],
                    EnsureRemote(kcp, cluster, ClientConfigFor(ConvertSecret(s.connectionSecret.value)), s, hostOf))
  {
  }

  lemma EnsureSplit(kcp: ControlPlane, cluster: Cluster, config: ClientConfig, s: Script, hostOf: string -> Option<string>)
    requires WellFormed(s) && EnsureControlPlane(kcp, s.ensureList, s.ensureCreate).err.None?
    ensures EnsureRemote(kcp, cluster, config, s, hostOf)
            == Then([UseBackend(config)] + RemoteSteps(Ensure, EnsureControlPlane(kcp, s.ensureList, s.ensureCreate).calls),
                    ObserveStatus(kcp, cluster, s, hostOf))
  {
  }

  lemma ObserveSplit(kcp: ControlPlane, cluster: Cluster, s: Script, hostOf: string -> Option<string>)
    requires WellFormed(s) && Status.GetStatus(kcp, s.statusList).Ok?
    ensures ObserveStatus(kcp, cluster, s, hostOf)
            == Then([Remote(Observe, ListKlusters)],
                    PersistStatus(kcp, cluster, Status.GetStatus(kcp, s.statusList).value, s, hostOf))
  {
  }

  /** A cycle that gets past the backend calls is the front followed by the
      persist stage. */
  lemma {:induction false} Reaches(req: ObjectKey, s: Script, hostOf: string -> Option<string>)
    requires WellFormed(s) && Proceeds(s)
    ensures Reconcile(req, s, hostOf)
            == Then(Front(req, s), PersistStatus(s.controlPlane.value, s.owner.value, Observed(s), s, hostOf))
  {
    var kcp, cluster := s.controlPlane.value, s.owner.value;
    var config := ClientConfigFor(ConvertSecret(s.connectionSecret.value));
    var steps := RemoteSteps(Ensure, EnsureControlPlane(kcp, s.ensureList, s.ensureCreate).calls);
    var rest := PersistStatus(kcp, cluster, Observed(s), s, hostOf);
    var observe := [Remote(Observe, ListKlusters)];
    var ensure := [UseBackend(config)] + steps;
    var connect := [GetConnectionSecret(cluster.key)];
    var start := [GetObject(req), GetOwner(OwnerClusterOf(kcp))];
    ReconcileSplit(req, s, hostOf);
    ConnectSplit(kcp, cluster, s, hostOf);
    EnsureSplit(kcp, cluster, config, s, hostOf);
    ObserveSplit(kcp, cluster, s, hostOf);
    ThenThen(ensure, observe, rest);
    ThenThen(connect, ensure + observe, rest);
    ThenThen(start, connect + (ensure + observe), rest);
  }

  /** A cycle that stops before the status write stays below it in the order. */
  lemma {:induction false} Stays(req: ObjectKey, s: Script, hostOf: string -> Option<string>)
    requires WellFormed(s) && !Proceeds(s)
    ensures forall x :: x in Reconcile(req, s, hostOf).trace ==> Rank(x) < 7
  {
    var c := Reconcile(req, s, hostOf);
    ReconcileSound(req, s, hostOf);
    BeforeStatusWrite(req, s, hostOf);
    AllAtMost(c.trace, 6);
  }

  /** A cycle that stops before the status write ends on a step of the front. */
  lemma {:induction false} BeforeStatusWrite(req: ObjectKey, s: Script, hostOf: string -> Option<string>)
    requires WellFormed(s) && !Proceeds(s)
    ensures var c := Reconcile(req, s, hostOf);
            |c.trace| > 0 && Rank(c.trace[|c.trace| - 1]) < 7
  {
    if s.controlPlane.Ok? && |s.controlPlane.value.ownerRefs| > 0 && s.owner.Ok? {
      var kcp, cluster := s.controlPlane.value, s.owner.value;
      var connect := Connect(kcp, cluster, s, hostOf);
      ReconcileSplit(req, s, hostOf);
      ConnectStops(kcp, cluster, s, hostOf);
      var t := Reconcile(req, s, hostOf).trace;
      assert t[|t| - 1] == connect.trace[|connect.trace| - 1];
    }
  }

  lemma {:induction false} ConnectStops(kcp: ControlPlane, cluster: Cluster, s: Script, hostOf: string -> Option<string>)
    requires WellFormed(s)
    requires !(s.connectionSecret.Ok? && EnsureControlPlane(kcp, s.ensureList, s.ensureCreate).err.None?
               && Status.GetStatus(kcp, s.statusList).Ok?)
    ensures var c := Connect(kcp, cluster, s, hostOf);
            |c.trace| > 0 && Rank(c.trace[|c.trace| - 1]) < 7
  {
    if s.connectionSecret.Ok? {
      var config := ClientConfigFor(ConvertSecret(s.connectionSecret.value));
      var ensure := EnsureRemote(kcp, cluster, config, s, hostOf);
      ConnectSplit(kcp, cluster, s, hostOf);
      EnsureStops(kcp, cluster, config, s, hostOf);
      var t := Connect(kcp, cluster, s, hostOf).trace;
      assert t[|t| - 1] == ensure.trace[|ensure.trace| - 1];
    }
  }

  lemma EnsureStops(kcp: ControlPlane, cluster: Cluster, config: ClientConfig, s: Script, hostOf: string -> Option<string>)
    requires WellFormed(s)
    requires !(EnsureControlPlane(kcp, s.ensureList, s.ensureCreate).err.None? && Status.GetStatus(kcp, s.statusList).Ok?)
    ensures var c := EnsureRemote(kcp, cluster, config, s, hostOf);
            |c.trace| > 0 && Rank(c.trace[|c.trace| - 1]) < 7
  {
    var ensured := EnsureControlPlane(kcp, s.ensureList, s.ensureCreate);
    var steps := RemoteSteps(Ensure, ensured.calls);
    EnsureStepsSound(kcp, s, hostOf);
    if ensured.err.Some? {
      assert EnsureRemote(kcp, cluster, config, s, hostOf) == Cycle([UseBackend(config)] + steps, Failed(ensured.err.value));
    } else {
      assert EnsureRemote(kcp, cluster, config, s, hostOf)
             == Cycle([UseBackend(config)] + steps + [Remote(Observe, ListKlusters)], Failed(Status.GetStatus(kcp, s.statusList).error));
    }
  }

  /** A step from the status write on belongs to the persist stage. */
  lemma {:induction false} LaterAt(req: ObjectKey, s: Script, hostOf: string -> Option<string>, x: Step)
    requires WellFormed(s) && x in Reconcile(req, s, hostOf).trace && 7 <= Rank(x)
    ensures Proceeds(s)
    ensures x in PersistStatus(s.controlPlane.value, s.owner.value, Observed(s), s, hostOf).trace
  {
    if !Proceeds(s) {
      Stays(req, s, hostOf);
      assert false;
    }
    Reaches(req, s, hostOf);
    FrontBelow(req, s);
  }

  // ---------------------------------------------------------------------
  // The stages after the status write, one step at a time

  lemma PublishAt(kcp: ControlPlane, cluster: Cluster, status: ControlPlaneStatus,
                  s: Script, hostOf: string -> Option<string>, x: Step)
    requires x in PublishEndpoint(kcp, cluster, status, s, hostOf).trace
    ensures 8 <= Rank(x) <= 10 && status.ready && cluster.endpoint.host == ""
    ensures x.UpdateOwner? ==>
              && s.show.Ok? && hostOf(s.show.value.status.apiserver).Some?
              && x.cluster == cluster.(endpoint := ApiEndpoint(hostOf(s.show.value.status.apiserver).value, Endpoint.ApiPort))
  {
  }

  lemma PublishStarts(kcp: ControlPlane, cluster: Cluster, status: ControlPlaneStatus,
                      s: Script, hostOf: string -> Option<string>)
    ensures var c := PublishEndpoint(kcp, cluster, status, s, hostOf);
            && (!(status.ready && cluster.endpoint.host == "") ==> c == Cycle([], Done))
            && (status.ready && cluster.endpoint.host == "" ==>
                  |c.trace| > 0 && c.trace[0] == Remote(Publish, ShowKluster(kcp.key.name)))
  {
  }

  lemma RotateAt(kcp: ControlPlane, cluster: Cluster, secret: KubeconfigSecret, s: Script, x: Step)
    requires x in RotateKubeconfig(kcp, cluster, secret, s).trace
    ensures x.CheckRotation? || x.UpdateKubeconfigSecret? || x == Remote(Rotate, GetKlusterCredentials(kcp.key.name))
    ensures x.CheckRotation? ==> x == CheckRotation(secret, RotationWindow)
    ensures !x.CheckRotation? ==> s.rotation == Ok(true)
    ensures x.UpdateKubeconfigSecret? ==>
              && s.rotationCredentials.Ok?
              && x.secret == GenerateKubeconfigSecret(cluster, s.rotationCredentials.value)
              && RotateKubeconfig(kcp, cluster, secret, s).verdict == VerdictOf(s.kubeconfigUpdate.ErrorOption())
  {
  }

  lemma RotateStarts(kcp: ControlPlane, cluster: Cluster, secret: KubeconfigSecret, s: Script)
    ensures var c := RotateKubeconfig(kcp, cluster, secret, s);
            |c.trace| > 0 && c.trace[0] == CheckRotation(secret, RotationWindow)
  {
  }

  /** The steps of provisioning up to the save, when all of them succeed. */
  function ProvisionFront(kcp: ControlPlane, cluster: Cluster, s: Script): seq<Step>
    requires WellFormed(s) && s.credentials.Ok? && s.kubeconfigLoad.Ok? && s.caSecret.Ok?
  {
    [Remote(Provision, GetKlusterCredentials(kcp.key.name)),
     CreateKubeconfigSecret(GenerateKubeconfigSecret(cluster, s.credentials.value)),
     LoadKubeconfig(s.credentials.value),
     Remote(Provision, GetKubeadmSecret(kcp.key.name)),
     SaveCertificates(DerivedCertificates(s.kubeconfigLoad.value, s.caSecret.value), CertificateOwner(kcp), cluster.key)]
  }

  lemma ProvisionSplit(kcp: ControlPlane, cluster: Cluster, s: Script)
    requires WellFormed(s)
    requires s.credentials.Ok? && s.kubeconfigCreate.Ok? && s.kubeconfigLoad.Ok? && s.caSecret.Ok? && s.certificateSave.Ok?
    ensures ProvisionCredentials(kcp, cluster, s)
            == Then(ProvisionFront(kcp, cluster, s),
                    RotateKubeconfig(kcp, cluster, GenerateKubeconfigSecret(cluster, s.credentials.value), s))
  {
  }

  lemma {:induction false} ProvisionAt(kcp: ControlPlane, cluster: Cluster, s: Script, x: Step)
    requires WellFormed(s) && x in ProvisionCredentials(kcp, cluster, s).trace
    ensures x.CheckRotation? ==>
              && s.credentials.Ok? && s.kubeconfigLoad.Ok? && s.caSecret.Ok?
              && x == CheckRotation(GenerateKubeconfigSecret(cluster, s.credentials.value), RotationWindow)
              && CreateKubeconfigSecret(x.secret) in ProvisionCredentials(kcp, cluster, s).trace
              && SaveCertificates(DerivedCertificates(s.kubeconfigLoad.value, s.caSecret.value), CertificateOwner(kcp), cluster.key)
                 in ProvisionCredentials(kcp, cluster, s).trace
    ensures x.UpdateKubeconfigSecret? ==>
              && s.rotation == Ok(true) && s.rotationCredentials.Ok?
              && x.secret == GenerateKubeconfigSecret(cluster, s.rotationCredentials.value)
              && ProvisionCredentials(kcp, cluster, s).verdict == VerdictOf(s.kubeconfigUpdate.ErrorOption())
  {
    if x.CheckRotation? || x.UpdateKubeconfigSecret? {
      if s.credentials.Ok? && s.kubeconfigCreate.Ok? && s.kubeconfigLoad.Ok? && s.caSecret.Ok? && s.certificateSave.Ok? {
        var secret := GenerateKubeconfigSecret(cluster, s.credentials.value);
        var front := ProvisionFront(kcp, cluster, s);
        var rotate := RotateKubeconfig(kcp, cluster, secret, s);
        ProvisionSplit(kcp, cluster, s);
        assert x in front + rotate.trace;
        assert x !in front;
        RotateAt(kcp, cluster, secret, s, x);
        assert front[1] in front + rotate.trace;
        assert front[4] in front + rotate.trace;
      } else {
        assert false;
      }
    }
  }

  lemma {:induction false} ProvisionDone(kcp: ControlPlane, cluster: Cluster, s: Script)
    requires WellFormed(s) && ProvisionCredentials(kcp, cluster, s).verdict.Done?
    ensures s.credentials.Ok?
    ensures CheckRotation(GenerateKubeconfigSecret(cluster, s.credentials.value), RotationWindow)
            in ProvisionCredentials(kcp, cluster, s).trace
  {
    var secret := GenerateKubeconfigSecret(cluster, s.credentials.value);
    ProvisionSplit(kcp, cluster, s);
    RotateStarts(kcp, cluster, secret, s);
    var rotate := RotateKubeconfig(kcp, cluster, secret, s);
    assert rotate.trace[0] in ProvisionFront(kcp, cluster, s) + rotate.trace;
  }

  lemma {:induction false} CredentialsAt(kcp: ControlPlane, cluster: Cluster, status: ControlPlaneStatus, s: Script, x: Step)
    requires WellFormed(s) && x in ManageCredentials(kcp, cluster, status, s).trace
    ensures status.ready
    ensures s.kubeconfigSecret.Ok? ==>
              && !x.CreateKubeconfigSecret? && !x.LoadKubeconfig? && !x.SaveCertificates?
              && !(x.Remote? && x.stage.Provision?)
              && (x.CheckRotation? ==> x == CheckRotation(s.kubeconfigSecret.value, RotationWindow))
    ensures s.kubeconfigSecret.Err? && x.CheckRotation? ==>
              && s.credentials.Ok? && s.kubeconfigLoad.Ok? && s.caSecret.Ok?
              && x == CheckRotation(GenerateKubeconfigSecret(cluster, s.credentials.value), RotationWindow)
              && CreateKubeconfigSecret(x.secret) in ManageCredentials(kcp, cluster, status, s).trace
              && SaveCertificates(DerivedCertificates(s.kubeconfigLoad.value, s.caSecret.value), CertificateOwner(kcp), cluster.key)
                 in ManageCredentials(kcp, cluster, status, s).trace
    ensures x.UpdateKubeconfigSecret? ==>
              && s.rotation == Ok(true) && s.rotationCredentials.Ok?
              && x.secret == GenerateKubeconfigSecret(cluster, s.rotationCredentials.value)
              && ManageCredentials(kcp, cluster, status, s).verdict == VerdictOf(s.kubeconfigUpdate.ErrorOption())
  {
    var get := GetKubeconfigSecret(cluster.key);
    match s.kubeconfigSecret
    case Ok(existing) =>
      if x != get {
        RotateAt(kcp, cluster, existing, s, x);
      }
    case Err(e) =>
      if e.NotFound? && x != get {
        var provision := ProvisionCredentials(kcp, cluster, s);
        assert ManageCredentials(kcp, cluster, status, s) == Then([get], provision);
        ProvisionAt(kcp, cluster, s, x);
        if x.CheckRotation? {
          assert CreateKubeconfigSecret(x.secret) in [get] + provision.trace;
          assert SaveCertificates(DerivedCertificates(s.kubeconfigLoad.value, s.caSecret.value), CertificateOwner(kcp), cluster.key)
                 in [get] + provision.trace;
        }
      }
  }

  lemma {:induction false} CredentialsStarts(kcp: ControlPlane, cluster: Cluster, status: ControlPlaneStatus, s: Script)
    requires WellFormed(s)
    ensures var c := ManageCredentials(kcp, cluster, status, s);
            && (!status.ready ==> c == Cycle([], Done))
            && (status.ready ==> |c.trace| > 0 && c.trace[0] == GetKubeconfigSecret(cluster.key))
            && (status.ready && s.kubeconfigSecret.Err? && !s.kubeconfigSecret.error.NotFound? ==>
                  c == Cycle([GetKubeconfigSecret(cluster.key)], Failed(s.kubeconfigSecret.error)))
            && (status.ready && c.verdict.Done? ==> exists x :: x in c.trace && x.CheckRotation?)
  {
    if status.ready {
      var get := GetKubeconfigSecret(cluster.key);
      var c := ManageCredentials(kcp, cluster, status, s);
      if c.verdict.Done? {
        match s.kubeconfigSecret
        case Ok(existing) =>
          var rotate := RotateKubeconfig(kcp, cluster, existing, s);
          RotateStarts(kcp, cluster, existing, s);
          assert rotate.trace[0] in [get] + rotate.trace;
        case Err(e) =>
          var provision := ProvisionCredentials(kcp, cluster, s);
          ProvisionDone(kcp, cluster, s);
          var check := CheckRotation(GenerateKubeconfigSecret(cluster, s.credentials.value), RotationWindow);
          assert check in [get] + provision.trace;
      }
    }
  }

  lemma {:induction false} PersistAt(kcp: ControlPlane, cluster: Cluster, status: ControlPlaneStatus,
                                     s: Script, hostOf: string -> Option<string>, x: Step)
    requires WellFormed(s) && x in PersistStatus(kcp, cluster, status, s, hostOf).trace
    ensures x.WriteStatus? ==> x == WriteStatus(status)
    ensures 8 <= Rank(x) <= 10 ==> s.statusWrite.Ok? && x in PublishEndpoint(kcp, cluster, status, s, hostOf).trace
    ensures 11 <= Rank(x) ==>
              && s.statusWrite.Ok? && !PublishEndpoint(kcp, cluster, status, s, hostOf).verdict.Failed?
              && x in ManageCredentials(kcp, cluster, status, s).trace
  {
    var published := PublishEndpoint(kcp, cluster, status, s, hostOf);
    var managed := ManageCredentials(kcp, cluster, status, s);
    if x != WriteStatus(status) {
      if x in published.trace {
        PublishAt(kcp, cluster, status, s, hostOf, x);
      } else {
        CredentialsSound(kcp, cluster, status, s, hostOf);
        AllAbove(managed.trace, 10);
      }
    }
  }

  lemma PersistStarts(kcp: ControlPlane, cluster: Cluster, status: ControlPlaneStatus,
                      s: Script, hostOf: string -> Option<string>)
    requires WellFormed(s)
    ensures var c := PersistStatus(kcp, cluster, status, s, hostOf);
            var published := PublishEndpoint(kcp, cluster, status, s, hostOf);
            var managed := ManageCredentials(kcp, cluster, status, s);
            && c.trace[0] == WriteStatus(status)
            && (s.statusWrite.Ok? && |published.trace| > 0 ==> |c.trace| > 1 && c.trace[1] == published.trace[0])
            && (c.verdict.Done? ==> s.statusWrite.Ok? && !published.verdict.Failed? && managed.verdict.Done?)
            && (s.statusWrite.Ok? && !published.verdict.Failed? ==>
                  c == Then([WriteStatus(status)] + published.trace, managed))
  {
  }

  // ---------------------------------------------------------------------
  // Properties of a whole cycle

  /** The credential steps are exactly those ranked 11 and above, the
      publication steps those ranked 8 to 10. */
  lemma RankClasses(x: Step)
    ensures IsCredentialStep(x) <==> 11 <= Rank(x)
    ensures IsPublishStep(x) <==> 8 <= Rank(x) <= 10
    ensures x.WriteStatus? <==> Rank(x) == 7
    ensures x.UseBackend? <==> Rank(x) == 3
  {
  }

  /** The only status a cycle writes is the one it fetched from the backend
      in the same cycle; the previously recorded status plays no part. */
  lemma {:induction false} StatusIsFresh(req: ObjectKey, s: Script, hostOf: string -> Option<string>)
    requires WellFormed(s)
    ensures forall x :: x in Reconcile(req, s, hostOf).trace && x.WriteStatus? ==>
              s.controlPlane.Ok? && Status.GetStatus(s.controlPlane.value, s.statusList) == Ok(x.status)
  {
    forall x | x in Reconcile(req, s, hostOf).trace && x.WriteStatus?
      ensures s.controlPlane.Ok? && Status.GetStatus(s.controlPlane.value, s.statusList) == Ok(x.status)
    {
      RankClasses(x);
      LaterAt(req, s, hostOf, x);
      PersistAt(s.controlPlane.value, s.owner.value, Observed(s), s, hostOf, x);
    }
  }

  /** Every cycle that gets past the backend calls writes the status it fetched. */
  lemma {:induction false} StatusWritten(req: ObjectKey, s: Script, hostOf: string -> Option<string>)
    requires WellFormed(s) && Proceeds(s)
    ensures WriteStatus(Observed(s)) in Reconcile(req, s, hostOf).trace
  {
    Reaches(req, s, hostOf);
    var rest := PersistStatus(s.controlPlane.value, s.owner.value, Observed(s), s, hostOf);
    PersistStarts(s.controlPlane.value, s.owner.value, Observed(s), s, hostOf);
    assert rest.trace[0] in Front(req, s) + rest.trace;
  }

  /** Publication steps happen only when the fetched status is ready, the
      status write succeeded, and the owner records no endpoint; any owner
      update carries the host parsed from the backend's address and port 443. */
  lemma {:induction false} PublishGated(req: ObjectKey, s: Script, hostOf: string -> Option<string>)
    requires WellFormed(s)
    ensures forall x :: x in Reconcile(req, s, hostOf).trace && IsPublishStep(x) ==>
              && ObservedReady(s) && s.statusWrite.Ok?
              && s.owner.Ok? && s.owner.value.endpoint.host == ""
    ensures forall x :: x in Reconcile(req, s, hostOf).trace && x.UpdateOwner? ==>
              && s.owner.Ok? && s.show.Ok? && hostOf(s.show.value.status.apiserver).Some?
              && x.cluster == s.owner.value.(endpoint := ApiEndpoint(hostOf(s.show.value.status.apiserver).value,
                                                                     Endpoint.ApiPort))
  {
    forall x | x in Reconcile(req, s, hostOf).trace && IsPublishStep(x)
      ensures && ObservedReady(s) && s.statusWrite.Ok? && s.owner.Ok? && s.owner.value.endpoint.host == ""
              && (x.UpdateOwner? ==>
                    && s.show.Ok? && hostOf(s.show.value.status.apiserver).Some?
                    && x.cluster == s.owner.value.(endpoint := ApiEndpoint(hostOf(s.show.value.status.apiserver).value,
                                                                           Endpoint.ApiPort)))
    {
      RankClasses(x);
      LaterAt(req, s, hostOf, x);
      var kcp, cluster, status := s.controlPlane.value, s.owner.value, Observed(s);
      PersistAt(kcp, cluster, status, s, hostOf, x);
      PublishAt(kcp, cluster, status, s, hostOf, x);
    }
  }

  /** Conversely, a ready status with no recorded endpoint, once written,
      makes the cycle ask the backend for the cluster's address. */
  lemma {:induction false} PublishHappens(req: ObjectKey, s: Script, hostOf: string -> Option<string>)
    requires WellFormed(s) && Proceeds(s) && s.statusWrite.Ok?
    requires ObservedReady(s) && s.owner.value.endpoint.host == ""
    ensures Remote(Publish, ShowKluster(s.controlPlane.value.key.name)) in Reconcile(req, s, hostOf).trace
  {
    var kcp, cluster, status := s.controlPlane.value, s.owner.value, Observed(s);
    Reaches(req, s, hostOf);
    PersistStarts(kcp, cluster, status, s, hostOf);
    PublishStarts(kcp, cluster, status, s, hostOf);
    var c := PersistStatus(kcp, cluster, status, s, hostOf);
    assert c.trace[1] in Front(req, s) + c.trace;
  }

  /** A ready status with no recorded endpoint, once written, and a backend
      address that parses, make the cycle update the owner with the parsed
      host and port 443; the cycle fails exactly when that update does. */
  lemma {:induction false} PublishCompletes(req: ObjectKey, s: Script, hostOf: string -> Option<string>)
    requires WellFormed(s) && Proceeds(s) && s.statusWrite.Ok?
    requires ObservedReady(s) && s.owner.value.endpoint.host == ""
    requires s.show.Ok? && hostOf(s.show.value.status.apiserver).Some?
    ensures UpdateOwner(s.owner.value.(endpoint := ApiEndpoint(hostOf(s.show.value.status.apiserver).value, Endpoint.ApiPort)))
            in Reconcile(req, s, hostOf).trace
    ensures s.clusterUpdate.Err? ==> Reconcile(req, s, hostOf).verdict == Failed(s.clusterUpdate.error)
  {
    var kcp, cluster, status := s.controlPlane.value, s.owner.value, Observed(s);
    var published := PublishEndpoint(kcp, cluster, status, s, hostOf);
    var update := UpdateOwner(cluster.(endpoint := ApiEndpoint(hostOf(s.show.value.status.apiserver).value, Endpoint.ApiPort)));
    assert published.trace[2] == update;
    Reaches(req, s, hostOf);
    PersistStarts(kcp, cluster, status, s, hostOf);
    var c := PersistStatus(kcp, cluster, status, s, hostOf);
    if published.verdict.Failed? {
      assert c == Then([WriteStatus(status)], published);
    }
    assert update in c.trace;
    assert update in Front(req, s) + c.trace;
  }

  /** Credential steps happen only when the fetched status is ready, the
      status write succeeded and publishing the endpoint did not fail. */
  lemma {:induction false} CredentialsGated(req: ObjectKey, s: Script, hostOf: string -> Option<string>)
    requires WellFormed(s)
    ensures forall x :: x in Reconcile(req, s, hostOf).trace && IsCredentialStep(x) ==>
              && Proceeds(s) && Observed(s).ready && s.statusWrite.Ok?
              && !PublishEndpoint(s.controlPlane.value, s.owner.value, Observed(s), s, hostOf).verdict.Failed?
  {
    forall x | x in Reconcile(req, s, hostOf).trace && IsCredentialStep(x)
      ensures && Proceeds(s) && Observed(s).ready && s.statusWrite.Ok?
              && !PublishEndpoint(s.controlPlane.value, s.owner.value, Observed(s), s, hostOf).verdict.Failed?
    {
      RankClasses(x);
      LaterAt(req, s, hostOf, x);
      var kcp, cluster, status := s.controlPlane.value, s.owner.value, Observed(s);
      PersistAt(kcp, cluster, status, s, hostOf, x);
      CredentialsAt(kcp, cluster, status, s, x);
    }
  }

  /** With an owner and a ready status, success means every call before the
      status write succeeded. */
  lemma DoneProceeds(req: ObjectKey, s: Script, hostOf: string -> Option<string>)
    requires WellFormed(s) && ObservedReady(s)
    requires |s.controlPlane.value.ownerRefs| > 0 && s.owner.Ok?
    requires Reconcile(req, s, hostOf).verdict.Done?
    ensures Proceeds(s)
  {
    var kcp, cluster := s.controlPlane.value, s.owner.value;
    if s.connectionSecret.Ok? {
      var config := ClientConfigFor(ConvertSecret(s.connectionSecret.value));
      assert EnsureRemote(kcp, cluster, config, s, hostOf).verdict.Done?;
    }
  }

  /** A cycle over a ready control plane with an owner that finishes
      successfully has looked at the kubeconfig secret and checked it for
      rotation. */
  lemma {:induction false} ReadyCycleChecksRotation(req: ObjectKey, s: Script, hostOf: string -> Option<string>)
    requires WellFormed(s) && ObservedReady(s)
    requires |s.controlPlane.value.ownerRefs| > 0 && s.owner.Ok?
    requires Reconcile(req, s, hostOf).verdict.Done?
    ensures GetKubeconfigSecret(s.owner.value.key) in Reconcile(req, s, hostOf).trace
    ensures exists x :: x in Reconcile(req, s, hostOf).trace && x.CheckRotation?
  {
    DoneProceeds(req, s, hostOf);
    var kcp, cluster, status := s.controlPlane.value, s.owner.value, Observed(s);
    Reaches(req, s, hostOf);
    PersistStarts(kcp, cluster, status, s, hostOf);
    CredentialsStarts(kcp, cluster, status, s);
    var published := PublishEndpoint(kcp, cluster, status, s, hostOf);
    var managed := ManageCredentials(kcp, cluster, status, s);
    var t := Front(req, s) + ([WriteStatus(status)] + published.trace);
    assert Reconcile(req, s, hostOf).trace == t + managed.trace;
    assert managed.trace[0] in t + managed.trace;
    var x :| x in managed.trace && x.CheckRotation?;
    assert x in t + managed.trace;
  }

  /** An existing kubeconfig secret is reused: nothing is provisioned, and
      the rotation check looks at that secret. */
  lemma {:induction false} ExistingSecretReused(req: ObjectKey, s: Script, hostOf: string -> Option<string>)
    requires WellFormed(s) && s.kubeconfigSecret.Ok?
    ensures forall x :: x in Reconcile(req, s, hostOf).trace ==>
              && !x.CreateKubeconfigSecret? && !x.LoadKubeconfig? && !x.SaveCertificates?
              && !(x.Remote? && x.stage.Provision?)
              && (x.CheckRotation? ==> x == CheckRotation(s.kubeconfigSecret.value, RotationWindow))
  {
    forall x | x in Reconcile(req, s, hostOf).trace
      ensures && !x.CreateKubeconfigSecret? && !x.LoadKubeconfig? && !x.SaveCertificates?
              && !(x.Remote? && x.stage.Provision?)
              && (x.CheckRotation? ==> x == CheckRotation(s.kubeconfigSecret.value, RotationWindow))
    {
      RankClasses(x);
      if 11 <= Rank(x) {
        LaterAt(req, s, hostOf, x);
        var kcp, cluster, status := s.controlPlane.value, s.owner.value, Observed(s);
        PersistAt(kcp, cluster, status, s, hostOf, x);
        CredentialsAt(kcp, cluster, status, s, x);
      }
    }
  }

  /** Without a kubeconfig secret, the one checked for rotation is the one
      generated from the backend's kubeconfig, after it was created and the
      certificates derived from it were saved. */
  lemma {:induction false} MissingSecretProvisioned(req: ObjectKey, s: Script, hostOf: string -> Option<string>)
    requires WellFormed(s) && s.kubeconfigSecret.Err?
    ensures forall x :: x in Reconcile(req, s, hostOf).trace && x.CheckRotation? ==>
              && s.controlPlane.Ok? && s.owner.Ok?
              && s.credentials.Ok? && s.kubeconfigLoad.Ok? && s.caSecret.Ok?
              && x == CheckRotation(GenerateKubeconfigSecret(s.owner.value, s.credentials.value), RotationWindow)
              && CreateKubeconfigSecret(x.secret) in Reconcile(req, s, hostOf).trace
              && SaveCertificates(DerivedCertificates(s.kubeconfigLoad.value, s.caSecret.value),
                                  CertificateOwner(s.controlPlane.value), s.owner.value.key) in Reconcile(req, s, hostOf).trace
  {
    var c := Reconcile(req, s, hostOf);
    forall x | x in c.trace && x.CheckRotation?
      ensures && s.controlPlane.Ok? && s.owner.Ok?
              && s.credentials.Ok? && s.kubeconfigLoad.Ok? && s.caSecret.Ok?
              && x == CheckRotation(GenerateKubeconfigSecret(s.owner.value, s.credentials.value), RotationWindow)
              && CreateKubeconfigSecret(x.secret) in c.trace
              && SaveCertificates(DerivedCertificates(s.kubeconfigLoad.value, s.caSecret.value),
                                  CertificateOwner(s.controlPlane.value), s.owner.value.key) in c.trace
    {
      RankClasses(x);
      LaterAt(req, s, hostOf, x);
      var kcp, cluster, status := s.controlPlane.value, s.owner.value, Observed(s);
      PersistAt(kcp, cluster, status, s, hostOf, x);
      CredentialsAt(kcp, cluster, status, s, x);
      ManagedIn(req, s, hostOf, CreateKubeconfigSecret(x.secret));
      ManagedIn(req, s, hostOf, SaveCertificates(DerivedCertificates(s.kubeconfigLoad.value, s.caSecret.value),
                                                 CertificateOwner(kcp), cluster.key));
    }
  }

  /** A step of the credential stage of a cycle that reached it is a step of the cycle. */
  lemma {:induction false} ManagedIn(req: ObjectKey, s: Script, hostOf: string -> Option<string>, y: Step)
    requires WellFormed(s) && Proceeds(s) && s.statusWrite.Ok?
    requires !PublishEndpoint(s.controlPlane.value, s.owner.value, Observed(s), s, hostOf).verdict.Failed?
    requires y in ManageCredentials(s.controlPlane.value, s.owner.value, Observed(s), s).trace
    ensures y in Reconcile(req, s, hostOf).trace
  {
    var kcp, cluster, status := s.controlPlane.value, s.owner.value, Observed(s);
    var published := PublishEndpoint(kcp, cluster, status, s, hostOf);
    var managed := ManageCredentials(kcp, cluster, status, s);
    Reaches(req, s, hostOf);
    PersistStarts(kcp, cluster, status, s, hostOf);
    assert Reconcile(req, s, hostOf).trace == Front(req, s) + (([WriteStatus(status)] + published.trace) + managed.trace);
  }

  /** Any other failure to read the kubeconfig secret ends the cycle with that error. */
  lemma {:induction false} SecretLookupFailure(req: ObjectKey, s: Script, hostOf: string -> Option<string>)
    requires WellFormed(s) && s.kubeconfigSecret.Err? && !s.kubeconfigSecret.error.NotFound?
    requires s.owner.Ok? && GetKubeconfigSecret(s.owner.value.key) in Reconcile(req, s, hostOf).trace
    ensures Reconcile(req, s, hostOf).verdict == Failed(s.kubeconfigSecret.error)
  {
    var x := GetKubeconfigSecret(s.owner.value.key);
    RankClasses(x);
    LaterAt(req, s, hostOf, x);
    var kcp, cluster, status := s.controlPlane.value, s.owner.value, Observed(s);
    PersistAt(kcp, cluster, status, s, hostOf, x);
    CredentialsStarts(kcp, cluster, status, s);
    PersistStarts(kcp, cluster, status, s, hostOf);
    Reaches(req, s, hostOf);
  }

  /** The kubeconfig secret is rewritten only after a positive rotation
      check, with the kubeconfig fetched for the rotation, and the cycle
      ends with the outcome of that write. */
  lemma {:induction false} RotationGated(req: ObjectKey, s: Script, hostOf: string -> Option<string>)
    requires WellFormed(s)
    ensures forall x :: x in Reconcile(req, s, hostOf).trace && x.UpdateKubeconfigSecret? ==>
              && s.rotation == Ok(true) && s.owner.Ok? && s.rotationCredentials.Ok?
              && x.secret == GenerateKubeconfigSecret(s.owner.value, s.rotationCredentials.value)
              && Reconcile(req, s, hostOf).verdict == VerdictOf(s.kubeconfigUpdate.ErrorOption())
  {
    var c := Reconcile(req, s, hostOf);
    forall x | x in c.trace && x.UpdateKubeconfigSecret?
      ensures && s.rotation == Ok(true) && s.owner.Ok? && s.rotationCredentials.Ok?
              && x.secret == GenerateKubeconfigSecret(s.owner.value, s.rotationCredentials.value)
              && c.verdict == VerdictOf(s.kubeconfigUpdate.ErrorOption())
    {
      RankClasses(x);
      LaterAt(req, s, hostOf, x);
      var kcp, cluster, status := s.controlPlane.value, s.owner.value, Observed(s);
      PersistAt(kcp, cluster, status, s, hostOf, x);
      CredentialsAt(kcp, cluster, status, s, x);
      PersistStarts(kcp, cluster, status, s, hostOf);
      Reaches(req, s, hostOf);
    }
  }

  /** A due rotation that the rotation stage gets through has fetched
      credentials and written the secret generated from them. */
  lemma RotateCompletes(kcp: ControlPlane, cluster: Cluster, secret: KubeconfigSecret, s: Script)
    requires s.rotation == Ok(true) && RotateKubeconfig(kcp, cluster, secret, s).verdict.Done?
    ensures s.rotationCredentials.Ok? && s.kubeconfigUpdate.Ok?
    ensures UpdateKubeconfigSecret(GenerateKubeconfigSecret(cluster, s.rotationCredentials.value))
            in RotateKubeconfig(kcp, cluster, secret, s).trace
  {
  }

  /** The same for the credential stage, whichever secret it checked. */
  lemma {:induction false} ManageRotates(kcp: ControlPlane, cluster: Cluster, status: ControlPlaneStatus, s: Script)
    requires WellFormed(s) && status.ready && s.rotation == Ok(true)
    requires ManageCredentials(kcp, cluster, status, s).verdict.Done?
    ensures s.rotationCredentials.Ok? && s.kubeconfigUpdate.Ok?
    ensures UpdateKubeconfigSecret(GenerateKubeconfigSecret(cluster, s.rotationCredentials.value))
            in ManageCredentials(kcp, cluster, status, s).trace
  {
    var get := GetKubeconfigSecret(cluster.key);
    match s.kubeconfigSecret
    case Ok(existing) =>
      var rotate := RotateKubeconfig(kcp, cluster, existing, s);
      RotateCompletes(kcp, cluster, existing, s);
      assert ManageCredentials(kcp, cluster, status, s).trace == [get] + rotate.trace;
    case Err(e) =>
      var provision := ProvisionCredentials(kcp, cluster, s);
      assert provision.verdict.Done?;
      var secret := GenerateKubeconfigSecret(cluster, s.credentials.value);
      ProvisionSplit(kcp, cluster, s);
      var rotate := RotateKubeconfig(kcp, cluster, secret, s);
      RotateCompletes(kcp, cluster, secret, s);
      assert ManageCredentials(kcp, cluster, status, s).trace == [get] + (ProvisionFront(kcp, cluster, s) + rotate.trace);
  }

  /** Conversely, a successful cycle over a ready control plane whose
      rotation check says the kubeconfig is due has rewritten the kubeconfig
      secret with one generated from freshly fetched credentials. */
  lemma {:induction false} RotationHappens(req: ObjectKey, s: Script, hostOf: string -> Option<string>)
    requires WellFormed(s) && ObservedReady(s)
    requires |s.controlPlane.value.ownerRefs| > 0 && s.owner.Ok?
    requires s.rotation == Ok(true) && Reconcile(req, s, hostOf).verdict.Done?
    ensures s.rotationCredentials.Ok? && s.kubeconfigUpdate.Ok?
    ensures UpdateKubeconfigSecret(GenerateKubeconfigSecret(s.owner.value, s.rotationCredentials.value))
            in Reconcile(req, s, hostOf).trace
  {
    DoneProceeds(req, s, hostOf);
    var kcp, cluster, status := s.controlPlane.value, s.owner.value, Observed(s);
    Reaches(req, s, hostOf);
    PersistStarts(kcp, cluster, status, s, hostOf);
    ManageRotates(kcp, cluster, status, s);
    ManagedIn(req, s, hostOf, UpdateKubeconfigSecret(GenerateKubeconfigSecret(cluster, s.rotationCredentials.value)));
  }

  /** The backend client is configured from the connection secret, with one
      trailing newline dropped from each value. */
  lemma {:induction false} ConnectionConfig(req: ObjectKey, s: Script, hostOf: string -> Option<string>)
    requires WellFormed(s)
    ensures forall x :: x in Reconcile(req, s, hostOf).trace && x.UseBackend? ==>
              s.connectionSecret.Ok? && x.config == ClientConfigFor(ConvertSecret(s.connectionSecret.value))
  {
    var c := Reconcile(req, s, hostOf);
    forall x | x in c.trace && x.UseBackend?
      ensures s.connectionSecret.Ok? && x.config == ClientConfigFor(ConvertSecret(s.connectionSecret.value))
    {
      RankClasses(x);
      UseBackendAt(req, s, hostOf, x);
    }
  }

  /** A step ranked after the owner read belongs to the connect stage. */
  lemma ConnectAt(req: ObjectKey, s: Script, hostOf: string -> Option<string>, x: Step)
    requires WellFormed(s) && x in Reconcile(req, s, hostOf).trace && 2 <= Rank(x)
    ensures s.controlPlane.Ok? && |s.controlPlane.value.ownerRefs| > 0 && s.owner.Ok?
    ensures x in Connect(s.controlPlane.value, s.owner.value, s, hostOf).trace
  {
    match s.controlPlane
    case Err(_) =>
    case Ok(kcp) =>
      if |kcp.ownerRefs| > 0 && s.owner.Ok? {
        ReconcileSplit(req, s, hostOf);
      }
  }

  lemma {:induction false} UseBackendAt(req: ObjectKey, s: Script, hostOf: string -> Option<string>, x: Step)
    requires WellFormed(s) && x in Reconcile(req, s, hostOf).trace && Rank(x) == 3
    ensures s.connectionSecret.Ok? && x == UseBackend(ClientConfigFor(ConvertSecret(s.connectionSecret.value)))
  {
    ConnectAt(req, s, hostOf, x);
    var kcp, cluster := s.controlPlane.value, s.owner.value;
    if s.connectionSecret.Ok? {
      var config := ClientConfigFor(ConvertSecret(s.connectionSecret.value));
      var ensured := EnsureRemote(kcp, cluster, config, s, hostOf);
      ConnectSplit(kcp, cluster, s, hostOf);
      assert x in ensured.trace;
      EnsureRemoteSound(kcp, cluster, config, s, hostOf);
      ChainOrdered(ensured.trace);
      var i :| 0 <= i < |ensured.trace| && ensured.trace[i] == x;
      assert ensured.trace[0] == UseBackend(config);
    }
  }
}

=== FILE: identity.dfy ===
/** What a cycle reads from the control plane object: its key, its uid,
    its spec version, whether it has owner references, and where its owner
    references lead the owner lookup. The status recorded on it and every
    other spec field play no part. */
module Identity {
  import opened Base
  import opened Api
  import opened Gateway
  import Status
  import Endpoint
  import opened Controller

  predicate SameIdentity(a: ControlPlane, b: ControlPlane) {
    a.key == b.key && a.uid == b.uid && a.spec.version == b.spec.version
  }

  /** Two scripts that differ at most in the control plane read. */
  predicate Agree(s: Script, t: Script) {
    t == s.(controlPlane := t.controlPlane)
  }

  lemma RotateSame(a: ControlPlane, b: ControlPlane, cluster: Cluster, secret: KubeconfigSecret, s: Script, t: Script)
    requires SameIdentity(a, b) && Agree(s, t)
    ensures RotateKubeconfig(a, cluster, secret, s) == RotateKubeconfig(b, cluster, secret, t)
  {
  }

  lemma SaveSame(a: ControlPlane, b: ControlPlane, cluster: Cluster, secret: KubeconfigSecret,
                 certs: seq<Certificate>, s: Script, t: Script)
    requires SameIdentity(a, b) && Agree(s, t)
    ensures SaveAndRotate(a, cluster, secret, certs, s) == SaveAndRotate(b, cluster, secret, certs, t)
  {
    RotateSame(a, b, cluster, secret, s, t);
  }

  lemma CertificatesSame(a: ControlPlane, b: ControlPlane, cluster: Cluster, text: string,
                         secret: KubeconfigSecret, s: Script, t: Script)
    requires KubeconfigResolves(s) && SameIdentity(a, b) && Agree(s, t)
    ensures KubeconfigResolves(t)
    ensures ProvisionCertificates(a, cluster, text, secret, s) == ProvisionCertificates(b, cluster, text, secret, t)
  {
    if s.kubeconfigLoad.Ok? && s.caSecret.Ok? {
      SaveSame(a, b, cluster, secret, DerivedCertificates(s.kubeconfigLoad.value, s.caSecret.value), s, t);
    }
  }

  lemma ProvisionSame(a: ControlPlane, b: ControlPlane, cluster: Cluster, s: Script, t: Script)
    requires KubeconfigResolves(s) && SameIdentity(a, b) && Agree(s, t)
    ensures KubeconfigResolves(t)
    ensures ProvisionCredentials(a, cluster, s) == ProvisionCredentials(b, cluster, t)
  {
    if s.credentials.Ok? {
      var text := s.credentials.value;
      CertificatesSame(a, b, cluster, text, GenerateKubeconfigSecret(cluster, text), s, t);
    }
  }

  lemma ManageSame(a: ControlPlane, b: ControlPlane, cluster: Cluster, status: ControlPlaneStatus, s: Script, t: Script)
    requires KubeconfigResolves(s) && SameIdentity(a, b) && Agree(s, t)
    ensures KubeconfigResolves(t)
    ensures ManageCredentials(a, cluster, status, s) == ManageCredentials(b, cluster, status, t)
  {
    if s.kubeconfigSecret.Ok? {
      RotateSame(a, b, cluster, s.kubeconfigSecret.value, s, t);
    } else {
      ProvisionSame(a, b, cluster, s, t);
    }
  }

  lemma PublishSame(a: ControlPlane, b: ControlPlane, cluster: Cluster, status: ControlPlaneStatus,
                    s: Script, t: Script, hostOf: string -> Option<string>)
    requires SameIdentity(a, b) && Agree(s, t)
    ensures PublishEndpoint(a, cluster, status, s, hostOf) == PublishEndpoint(b, cluster, status, t, hostOf)
  {
    assert Endpoint.GetEndpoint(a, s.show, hostOf) == Endpoint.GetEndpoint(b, t.show, hostOf);
  }

  lemma PersistSame(a: ControlPlane, b: ControlPlane, cluster: Cluster, status: ControlPlaneStatus,
                    s: Script, t: Script, hostOf: string -> Option<string>)
    requires KubeconfigResolves(s) && SameIdentity(a, b) && Agree(s, t)
    ensures KubeconfigResolves(t)
    ensures PersistStatus(a, cluster, status, s, hostOf) == PersistStatus(b, cluster, status, t, hostOf)
  {
    PublishSame(a, b, cluster, status, s, t, hostOf);
    ManageSame(a, b, cluster, status, s, t);
  }

  lemma StatusSame(a: ControlPlane, b: ControlPlane, list: Result<seq<Kluster>>)
    requires a.key.name == b.key.name
    ensures Status.GetStatus(a, list) == Status.GetStatus(b, list)
  {
    if list.Ok? {
      assert FirstNamed(list.value, a.key.name) == FirstNamed(list.value, b.key.name);
    }
  }

  lemma ObserveSame(a: ControlPlane, b: ControlPlane, cluster: Cluster, s: Script, t: Script, hostOf: string -> Option<string>)
    requires KubeconfigResolves(s) && SameIdentity(a, b) && Agree(s, t)
    ensures KubeconfigResolves(t)
    ensures ObserveStatus(a, cluster, s, hostOf) == ObserveStatus(b, cluster, t, hostOf)
  {
    StatusSame(a, b, s.statusList);
    var r := Status.GetStatus(a, s.statusList);
    if r.Ok? {
      PersistSame(a, b, cluster, r.value, s, t, hostOf);
    }
  }

  lemma EnsureSame(a: ControlPlane, b: ControlPlane, cluster: Cluster, config: ClientConfig,
                   s: Script, t: Script, hostOf: string -> Option<string>)
    requires KubeconfigResolves(s) && SameIdentity(a, b) && Agree(s, t)
    ensures KubeconfigResolves(t)
    ensures EnsureRemote(a, cluster, config, s, hostOf) == EnsureRemote(b, cluster, config, t, hostOf)
  {
    assert BuildKluster(a) == BuildKluster(b);
    assert EnsureControlPlane(a, s.ensureList, s.ensureCreate) == EnsureControlPlane(b, t.ensureList, t.ensureCreate);
    ObserveSame(a, b, cluster, s, t, hostOf);
  }

  lemma ConnectSame(a: ControlPlane, b: ControlPlane, cluster: Cluster, s: Script, t: Script, hostOf: string -> Option<string>)
    requires KubeconfigResolves(s) && SameIdentity(a, b) && Agree(s, t)
    ensures KubeconfigResolves(t)
    ensures Connect(a, cluster, s, hostOf) == Connect(b, cluster, t, hostOf)
  {
    if s.connectionSecret.Ok? {
      var config := ClientConfigFor(ConvertSecret(s.connectionSecret.value));
      EnsureSame(a, b, cluster, config, s, t, hostOf);
    }
  }

  /** Replacing the control plane by one with the same key, uid and spec
      version, with owner references exactly when it had some and with
      references that send the owner lookup to the same place, leaves the
      cycle unchanged: neither the status recorded on it nor any other
      spec field is read. */
  lemma {:induction false} OnlyIdentityRead(req: ObjectKey, s: Script, hostOf: string -> Option<string>, other: ControlPlane)
    requires WellFormed(s) && s.controlPlane.Ok? && SameIdentity(s.controlPlane.value, other)
    requires |other.ownerRefs| == 0 <==> |s.controlPlane.value.ownerRefs| == 0
    requires OwnerClusterOf(other) == OwnerClusterOf(s.controlPlane.value)
    ensures WellFormed(s.(controlPlane := Ok(other)))
    ensures Reconcile(req, s.(controlPlane := Ok(other)), hostOf) == Reconcile(req, s, hostOf)
  {
    var t := s.(controlPlane := Ok(other));
    var kcp := s.controlPlane.value;
    if |kcp.ownerRefs| > 0 && s.owner.Ok? {
      ConnectSame(kcp, other, s.owner.value, s, t, hostOf);
    }
  }

  /** In particular the status the control plane carried before the cycle. */
  lemma {:induction false} PriorStatusIgnored(req: ObjectKey, s: Script, hostOf: string -> Option<string>, prior: ControlPlaneStatus)
    requires WellFormed(s) && s.controlPlane.Ok?
    ensures WellFormed(s.(controlPlane := Ok(s.controlPlane.value.(status := prior))))
    ensures Reconcile(req, s.(controlPlane := Ok(s.controlPlane.value.(status := prior))), hostOf) == Reconcile(req, s, hostOf)
  {
    OnlyIdentityRead(req, s, hostOf, s.controlPlane.value.(status := prior));
  }
}

=== FILE: reconcile_props.dfy ===
/** Properties of one reconciliation cycle: early exits, fail-fast, step
    order, what is persisted, and how the endpoint and credential work are
    gated. */
module ReconcileProps {
  import opened Base
  import opened Api
  import opened Gateway
  import Status
  import Endpoint
  import opened Controller

  // ---------------------------------------------------------------------
  // Reference definitions, independent of how Reconcile is composed

  /** A lookup whose NotFound the cycle handles is not a failure of that step. */
  function Hard<T>(r: Result<T>): Option<Error> {
    if r.Err? && !r.error.NotFound? then Some(r.error) else None
  }

  /** The error the script makes a step fail with, if it fails. */
  function StepFailure(s: Script, hostOf: string -> Option<string>, step: Step): Option<Error> {
    match step
    case GetObject(_) => Hard(s.controlPlane)
    case GetOwner(_) => Hard(s.owner)
    case GetConnectionSecret(_) => s.connectionSecret.ErrorOption()
    case UseBackend(_) => None
    case Remote(stage, call) => RemoteFailure(s, stage, call)
    case WriteStatus(_) => s.statusWrite.ErrorOption()
    case ParseApiserver(raw) => if hostOf(raw).None? then Some(BadUrl(raw)) else None
    case UpdateOwner(_) => s.clusterUpdate.ErrorOption()
    case GetKubeconfigSecret(_) => Hard(s.kubeconfigSecret)
    case CreateKubeconfigSecret(_) => s.kubeconfigCreate.ErrorOption()
    case LoadKubeconfig(_) => s.kubeconfigLoad.ErrorOption()
    case SaveCertificates(_, _, _) => s.certificateSave.ErrorOption()
    case CheckRotation(_, _) => s.rotation.ErrorOption()
    case UpdateKubeconfigSecret(_) => s.kubeconfigUpdate.ErrorOption()
  }

  function RemoteFailure(s: Script, stage: Stage, call: RemoteCall): Option<Error> {
    if stage.Ensure? && call.ListKlusters? then s.ensureList.ErrorOption()
    else if stage.Ensure? && call.CreateKluster? then s.ensureCreate.ErrorOption()
    else if stage.Observe? && call.ListKlusters? then s.statusList.ErrorOption()
    else if stage.Publish? && call.ShowKluster? then s.show.ErrorOption()
    else if stage.Provision? && call.GetKlusterCredentials? then s.credentials.ErrorOption()
    else if stage.Provision? && call.GetKubeadmSecret? then s.caSecret.ErrorOption()
    else if stage.Rotate? && call.GetKlusterCredentials? then s.rotationCredentials.ErrorOption()
    else None
  }

  /** Every step but the last succeeded, and the cycle failed exactly when
      its last step did, with that step's error. */
  predicate FailsFast(s: Script, hostOf: string -> Option<string>, c: Cycle) {
    && (forall i :: 0 <= i < |c.trace| - 1 ==> StepFailure(s, hostOf, c.trace[i]).None?)
    && (c.verdict.Failed? ==> |c.trace| > 0 && StepFailure(s, hostOf, c.trace[|c.trace| - 1]) == Some(c.verdict.error))
    && (!c.verdict.Failed? && |c.trace| > 0 ==> StepFailure(s, hostOf, c.trace[|c.trace| - 1]).None?)
  }

  /** The position of each step in the fixed order of a cycle. */
  function Rank(step: Step): nat {
    match step
    case GetObject(_) => 0
    case GetOwner(_) => 1
    case GetConnectionSecret(_) => 2
    case UseBackend(_) => 3
    case Remote(stage, call) => RemoteRank(stage, call)
    case WriteStatus(_) => 7
    case ParseApiserver(_) => 9
    case UpdateOwner(_) => 10
    case GetKubeconfigSecret(_) => 11
    case CreateKubeconfigSecret(_) => 13
    case LoadKubeconfig(_) => 14
    case SaveCertificates(_, _, _) => 16
    case CheckRotation(_, _) => 17
    case UpdateKubeconfigSecret(_) => 19
  }

  function RemoteRank(stage: Stage, call: RemoteCall): nat {
    match stage
    case Ensure => if call.ListKlusters? then 4 else 5
    case Observe => 6
    case Publish => 8
    case Provision => if call.GetKlusterCredentials? then 12 else 15
    case Rotate => 18
  }

  /** Steps appear in the fixed order, each at most once. */
  predicate Ordered(t: seq<Step>) {
    forall i, j :: 0 <= i < j < |t| ==> Rank(t[i]) < Rank(t[j])
  }

  predicate IsWrite(step: Step) {
    || (step.Remote? && (step.call.CreateKluster? || step.call.UpdateKluster?))
    || step.WriteStatus? || step.UpdateOwner? || step.CreateKubeconfigSecret?
    || step.SaveCertificates? || step.UpdateKubeconfigSecret?
  }

  predicate IsCredentialStep(step: Step) {
    || step.GetKubeconfigSecret? || step.CreateKubeconfigSecret? || step.LoadKubeconfig?
    || step.SaveCertificates? || step.CheckRotation? || step.UpdateKubeconfigSecret?
    || (step.Remote? && (step.stage.Provision? || step.stage.Rotate?))
  }

  predicate IsPublishStep(step: Step) {
    step.UpdateOwner? || step.ParseApiserver? || (step.Remote? && step.stage.Publish?)
  }

  /** The status fetched in this cycle exists and says ready. */
  predicate ObservedReady(s: Script) {
    && s.controlPlane.Ok?
    && Status.GetStatus(s.controlPlane.value, s.statusList).Ok?
    && Status.GetStatus(s.controlPlane.value, s.statusList).value.ready
  }

  // ---------------------------------------------------------------------
  // Early exits

  /** A vanished control plane ends the cycle successfully after the one
      read; any other read error is returned. */
  lemma ControlPlaneMissing(req: ObjectKey, s: Script, hostOf: string -> Option<string>)
    requires WellFormed(s) && s.controlPlane.Err?
    ensures s.controlPlane.error.NotFound? ==> Reconcile(req, s, hostOf) == Cycle([GetObject(req)], Done)
    ensures !s.controlPlane.error.NotFound? ==>
              Reconcile(req, s, hostOf) == Cycle([GetObject(req)], Failed(s.controlPlane.error))
  {
  }

  /** Without owner references the cycle asks to be requeued, touching nothing else. */
  lemma NoOwnerRequeues(req: ObjectKey, s: Script, hostOf: string -> Option<string>)
    requires WellFormed(s) && s.controlPlane.Ok? && |s.controlPlane.value.ownerRefs| == 0
    ensures Reconcile(req, s, hostOf) == Cycle([GetObject(req)], Requeue)
  {
  }

  /** The owner reference that decides the lookup decides the cycle's
      second step: with a parsable apiVersion the Cluster of that
      reference's name is fetched from the control plane's namespace, and
      the connection secret is read under that same key; with an
      unparsable one the cycle fails with the parse error. */
  lemma OwnerFromReferences(req: ObjectKey, s: Script, hostOf: string -> Option<string>, i: int)
    requires WellFormed(s) && s.controlPlane.Ok? && FirstDecisive(s.controlPlane.value.ownerRefs, i)
    ensures var kcp := s.controlPlane.value;
            var ref := kcp.ownerRefs[i];
            var key := ObjectKey(kcp.key.namespace, ref.name);
            var c := Reconcile(req, s, hostOf);
            && (GroupOf(ref.apiVersion).Some? ==> |c.trace| >= 2 && c.trace[1] == GetOwner(ClusterNamed(key)))
            && (GroupOf(ref.apiVersion).Some? && s.owner.Ok? ==> |c.trace| >= 3 && c.trace[2] == GetConnectionSecret(key))
            && (GroupOf(ref.apiVersion).None? ==>
                  c == Cycle([GetObject(req), GetOwner(BadApiVersion(ref.apiVersion))], Failed(BadGroupVersion(ref.apiVersion))))
  {
    var kcp := s.controlPlane.value;
    OwnerLookup(kcp.key.namespace, kcp.ownerRefs, i);
  }

  /** A vanished owner ends the cycle successfully; any other error is returned. */
  lemma OwnerMissing(req: ObjectKey, s: Script, hostOf: string -> Option<string>)
    requires WellFormed(s) && s.controlPlane.Ok? && |s.controlPlane.value.ownerRefs| > 0 && s.owner.Err?
    ensures var t := [GetObject(req), GetOwner(OwnerClusterOf(s.controlPlane.value))];
            && (s.owner.error.NotFound? ==> Reconcile(req, s, hostOf) == Cycle(t, Done))
            && (!s.owner.error.NotFound? ==> Reconcile(req, s, hostOf) == Cycle(t, Failed(s.owner.error)))
  {
  }

  /** Requeue is asked for only when the control plane has no owner. */
  lemma RequeueOnlyWithoutOwner(req: ObjectKey, s: Script, hostOf: string -> Option<string>)
    requires WellFormed(s)
    ensures Reconcile(req, s, hostOf).verdict.Requeue? <==>
              s.controlPlane.Ok? && |s.controlPlane.value.ownerRefs| == 0
  {
  }

  // ---------------------------------------------------------------------
  // Fail-fast and order

  predicate NoFailures(s: Script, hostOf: string -> Option<string>, t: seq<Step>) {
    forall i :: 0 <= i < |t| ==> StepFailure(s, hostOf, t[i]).None?
  }

  /** Each step ranks above the one before it. */
  predicate Chain(t: seq<Step>) {
    forall i :: 0 < i < |t| ==> Rank(t[i - 1]) < Rank(t[i])
  }

  predicate StartsAbove(t: seq<Step>, k: int) {
    |t| == 0 || k < Rank(t[0])
  }

  predicate EndsAtMost(t: seq<Step>, k: int) {
    |t| == 0 || Rank(t[|t| - 1]) <= k
  }

  /** A part of a cycle that fails fast, keeps the order, and only holds
      steps ranked above `k`. */
  predicate Sound(s: Script, hostOf: string -> Option<string>, c: Cycle, k: int) {
    FailsFast(s, hostOf, c) && Chain(c.trace) && StartsAbove(c.trace, k)
  }

  lemma {:induction false} ChainOrdered(t: seq<Step>)
    requires Chain(t)
    ensures Ordered(t)
    decreases |t|
  {
    if |t| > 1 {
      assert Chain(t[1..]) by {
        forall i | 0 < i < |t[1..]|
          ensures Rank(t[1..][i - 1]) < Rank(t[1..][i])
        {
          assert t[1..][i - 1] == t[i] && t[1..][i] == t[i + 1];
        }
      }
      ChainOrdered(t[1..]);
      forall i, j | 0 <= i < j < |t|
        ensures Rank(t[i]) < Rank(t[j])
      {
        if i > 0 {
          assert t[1..][i - 1] == t[i] && t[1..][j - 1] == t[j];
        } else if j > 1 {
          assert t[1..][0] == t[1] && t[1..][j - 1] == t[j];
        }
      }
    }
  }

  lemma SucceededHasNoFailures(s: Script, hostOf: string -> Option<string>, c: Cycle)
    requires FailsFast(s, hostOf, c) && !c.verdict.Failed?
    ensures NoFailures(s, hostOf, c.trace)
  {
  }

  lemma ThenSound(s: Script, hostOf: string -> Option<string>, p: seq<Step>, rest: Cycle, k: int, m: int)
    requires m <= k
    requires NoFailures(s, hostOf, p) && Chain(p) && StartsAbove(p, m) && EndsAtMost(p, k)
    requires Sound(s, hostOf, rest, k)
    ensures Sound(s, hostOf, Then(p, rest), m)
  {
    var t := Then(p, rest).trace;
    assert forall i :: 0 <= i < |p| ==> t[i] == p[i];
    assert forall i :: |p| <= i < |t| ==> t[i] == rest.trace[i - |p|];
  }

  lemma ConcatSound(s: Script, hostOf: string -> Option<string>, p: seq<Step>, q: seq<Step>, k: int, m: int, n: int)
    requires m <= k
    requires NoFailures(s, hostOf, p) && Chain(p) && StartsAbove(p, m) && EndsAtMost(p, k)
    requires NoFailures(s, hostOf, q) && Chain(q) && StartsAbove(q, k) && EndsAtMost(q, n) && k <= n
    ensures NoFailures(s, hostOf, p + q) && Chain(p + q) && StartsAbove(p + q, m) && EndsAtMost(p + q, n)
  {
    var t := p + q;
    assert forall i :: 0 <= i < |p| ==> t[i] == p[i];
    assert forall i :: |p| <= i < |t| ==> t[i] == q[i - |p|];
  }

  /** A one-step part of a cycle whose verdict is that step's outcome. */
  lemma StepSound(s: Script, hostOf: string -> Option<string>, step: Step, v: Verdict, k: int)
    requires k < Rank(step)
    requires v.Failed? ==> StepFailure(s, hostOf, step) == Some(v.error)
    requires !v.Failed? ==> StepFailure(s, hostOf, step).None?
    ensures Sound(s, hostOf, Cycle([step], v), k)
  {
  }

  function VerdictOf(outcome: Option<Error>): Verdict {
    match outcome
    case None => Done
    case Some(e) => Failed(e)
  }

  lemma {:induction false} RotateSound(kcp: ControlPlane, cluster: Cluster, secret: KubeconfigSecret,
                                       s: Script, hostOf: string -> Option<string>)
    ensures Sound(s, hostOf, RotateKubeconfig(kcp, cluster, secret, s), 16)
  {
    var check := CheckRotation(secret, RotationWindow);
    match s.rotation
    case Err(e) => StepSound(s, hostOf, check, Failed(e), 16);
    case Ok(due) =>
      if !due {
        StepSound(s, hostOf, check, Done, 16);
      } else {
        var fetch := Remote(Rotate, GetKlusterCredentials(kcp.key.name));
        match s.rotationCredentials
        case Err(e) =>
          StepSound(s, hostOf, fetch, Failed(e), 17);
          ThenSound(s, hostOf, [check], Cycle([fetch], Failed(e)), 17, 16);
        case Ok(text) =>
          var update := UpdateKubeconfigSecret(GenerateKubeconfigSecret(cluster, text));
          var v := VerdictOf(s.kubeconfigUpdate.ErrorOption());
          StepSound(s, hostOf, update, v, 18);
          ThenSound(s, hostOf, [check, fetch], Cycle([update], v), 18, 16);
          assert RotateKubeconfig(kcp, cluster, secret, s) == Then([check, fetch], Cycle([update], v));
      }
  }

  lemma {:induction false} CertificatesSound(kcp: ControlPlane, cluster: Cluster, text: string,
                                             secret: KubeconfigSecret, s: Script, hostOf: string -> Option<string>)
    requires WellFormed(s)
    ensures Sound(s, hostOf, ProvisionCertificates(kcp, cluster, text, secret, s), 13)
  {
    var load := LoadKubeconfig(text);
    var fetch := Remote(Provision, GetKubeadmSecret(kcp.key.name));
    match s.kubeconfigLoad
    case Err(e) => StepSound(s, hostOf, load, Failed(e), 13);
    case Ok(kc) =>
      match s.caSecret
      case Err(e) =>
        StepSound(s, hostOf, fetch, Failed(e), 14);
        ThenSound(s, hostOf, [load], Cycle([fetch], Failed(e)), 14, 13);
      case Ok(ca) =>
        FetchedSound(kcp, cluster, text, secret, s, hostOf);
  }

  /** Provisioning of certificates that gets as far as the save. */
  lemma {:induction false} FetchedSound(kcp: ControlPlane, cluster: Cluster, text: string,
                                        secret: KubeconfigSecret, s: Script, hostOf: string -> Option<string>)
    requires WellFormed(s) && s.kubeconfigLoad.Ok? && s.caSecret.Ok?
    ensures Sound(s, hostOf, ProvisionCertificates(kcp, cluster, text, secret, s), 13)
  {
    var kc, ca := s.kubeconfigLoad.value, s.caSecret.value;
    var start := [LoadKubeconfig(text), Remote(Provision, GetKubeadmSecret(kcp.key.name))];
    var rest := SaveAndRotate(kcp, cluster, secret, DerivedCertificates(kc, ca), s);
    SaveSound(kcp, cluster, secret, kc, ca, s, hostOf);
    ThenSound(s, hostOf, start, rest, 15, 13);
    SoundEqual(s, hostOf, ProvisionCertificates(kcp, cluster, text, secret, s), Then(start, rest), 13);
  }

  lemma {:induction false} SaveSound(kcp: ControlPlane, cluster: Cluster, secret: KubeconfigSecret,
                                     kc: Kubeconfig, ca: map<string, string>, s: Script, hostOf: string -> Option<string>)
    requires Resolvable(kc)
    ensures Sound(s, hostOf, SaveAndRotate(kcp, cluster, secret, DerivedCertificates(kc, ca), s), 15)
  {
    var save := SaveCertificates(DerivedCertificates(kc, ca), CertificateOwner(kcp), cluster.key);
    match s.certificateSave
    case Err(e) =>
      StepSound(s, hostOf, save, Failed(e), 15);
    case Ok(_) =>
      RotateSound(kcp, cluster, secret, s, hostOf);
      ThenSound(s, hostOf, [save], RotateKubeconfig(kcp, cluster, secret, s), 16, 15);
  }

  lemma {:induction false} ProvisionSound(kcp: ControlPlane, cluster: Cluster, s: Script, hostOf: string -> Option<string>)
    requires WellFormed(s)
    ensures Sound(s, hostOf, ProvisionCredentials(kcp, cluster, s), 11)
  {
    if s.credentials.Ok? && s.kubeconfigCreate.Ok? {
      var secret := GenerateKubeconfigSecret(cluster, s.credentials.value);
      var t := [Remote(Provision, GetKlusterCredentials(kcp.key.name)), CreateKubeconfigSecret(secret)];
      CertificatesSound(kcp, cluster, s.credentials.value, secret, s, hostOf);
      ThenSound(s, hostOf, t, ProvisionCertificates(kcp, cluster, s.credentials.value, secret, s), 13, 11);
    }
  }

  lemma {:induction false} CredentialsSound(kcp: ControlPlane, cluster: Cluster, status: ControlPlaneStatus,
                                            s: Script, hostOf: string -> Option<string>)
    requires WellFormed(s)
    ensures Sound(s, hostOf, ManageCredentials(kcp, cluster, status, s), 10)
  {
    if status.ready {
      var t := [GetKubeconfigSecret(cluster.key)];
      match s.kubeconfigSecret
      case Ok(existing) =>
        RotateSound(kcp, cluster, existing, s, hostOf);
        ThenSound(s, hostOf, t, RotateKubeconfig(kcp, cluster, existing, s), 16, 10);
      case Err(e) =>
        if e.NotFound? {
          ProvisionSound(kcp, cluster, s, hostOf);
          ThenSound(s, hostOf, t, ProvisionCredentials(kcp, cluster, s), 11, 10);
        }
    }
  }

  lemma {:induction false} PublishSound(kcp: ControlPlane, cluster: Cluster, status: ControlPlaneStatus,
                                        s: Script, hostOf: string -> Option<string>)
    ensures Sound(s, hostOf, PublishEndpoint(kcp, cluster, status, s, hostOf), 7)
    ensures EndsAtMost(PublishEndpoint(kcp, cluster, status, s, hostOf).trace, 10)
  {
  }

  lemma {:induction false} PersistSound(kcp: ControlPlane, cluster: Cluster, status: ControlPlaneStatus,
                                        s: Script, hostOf: string -> Option<string>)
    requires WellFormed(s)
    ensures Sound(s, hostOf, PersistStatus(kcp, cluster, status, s, hostOf), 6)
  {
    var t := [WriteStatus(status)];
    if s.statusWrite.Ok? {
      var published := PublishEndpoint(kcp, cluster, status, s, hostOf);
      PublishSound(kcp, cluster, status, s, hostOf);
      if published.verdict.Failed? {
        ThenSound(s, hostOf, t, published, 7, 6);
      } else {
        SucceededHasNoFailures(s, hostOf, published);
        ConcatSound(s, hostOf, t, published.trace, 7, 6, 10);
        CredentialsSound(kcp, cluster, status, s, hostOf);
        ThenSound(s, hostOf, t + published.trace, ManageCredentials(kcp, cluster, status, s), 10, 6);
      }
    }
  }

  lemma {:induction false} ObserveSound(kcp: ControlPlane, cluster: Cluster, s: Script, hostOf: string -> Option<string>)
    requires WellFormed(s)
    ensures Sound(s, hostOf, ObserveStatus(kcp, cluster, s, hostOf), 5)
  {
    match Status.GetStatus(kcp, s.statusList)
    case Err(_) =>
    case Ok(status) =>
      PersistSound(kcp, cluster, status, s, hostOf);
      ThenSound(s, hostOf, [Remote(Observe, ListKlusters)], PersistStatus(kcp, cluster, status, s, hostOf), 6, 5);
  }

  /** The steps of the create-if-absent call, as a part of a cycle. */
  lemma EnsureStepsSound(kcp: ControlPlane, s: Script, hostOf: string -> Option<string>)
    ensures var ensured := EnsureControlPlane(kcp, s.ensureList, s.ensureCreate);
            var steps := RemoteSteps(Ensure, ensured.calls);
            && Chain(steps) && StartsAbove(steps, 3) && EndsAtMost(steps, 5) && |steps| > 0
            && (ensured.err.None? ==> NoFailures(s, hostOf, steps))
            && (ensured.err.Some? ==> Sound(s, hostOf, Cycle(steps, Failed(ensured.err.value)), 3))
  {
  }

  lemma {:induction false} EnsureRemoteSound(kcp: ControlPlane, cluster: Cluster, config: ClientConfig,
                                             s: Script, hostOf: string -> Option<string>)
    requires WellFormed(s)
    ensures Sound(s, hostOf, EnsureRemote(kcp, cluster, config, s, hostOf), 2)
  {
    var ensured := EnsureControlPlane(kcp, s.ensureList, s.ensureCreate);
    var steps := RemoteSteps(Ensure, ensured.calls);
    EnsureStepsSound(kcp, s, hostOf);
    match ensured.err
    case Some(e) =>
      ThenSound(s, hostOf, [UseBackend(config)], Cycle(steps, Failed(e)), 3, 2);
    case None =>
      ConcatSound(s, hostOf, [UseBackend(config)], steps, 3, 2, 5);
      ObserveSound(kcp, cluster, s, hostOf);
      ThenSound(s, hostOf, [UseBackend(config)] + steps, ObserveStatus(kcp, cluster, s, hostOf), 5, 2);
  }

  lemma {:induction false} ConnectSound(kcp: ControlPlane, cluster: Cluster, s: Script, hostOf: string -> Option<string>)
    requires WellFormed(s)
    ensures Sound(s, hostOf, Connect(kcp, cluster, s, hostOf), 1)
  {
    match s.connectionSecret
    case Err(_) =>
    case Ok(data) =>
      var config := ClientConfigFor(ConvertSecret(data));
      EnsureRemoteSound(kcp, cluster, config, s, hostOf);
      ThenSound(s, hostOf, [GetConnectionSecret(cluster.key)], EnsureRemote(kcp, cluster, config, s, hostOf), 2, 1);
  }

  /** Every step before the last succeeded, and the cycle failed exactly
      when its last step failed, with that step's error. */
  lemma {:induction false} FailFast(req: ObjectKey, s: Script, hostOf: string -> Option<string>)
    requires WellFormed(s)
    ensures |Reconcile(req, s, hostOf).trace| > 0
    ensures FailsFast(s, hostOf, Reconcile(req, s, hostOf))
  {
    ReconcileSound(req, s, hostOf);
  }

  /** The steps of a cycle follow the fixed order, each at most once: no
      later step runs before an earlier one. */
  lemma {:induction false} StepsInOrder(req: ObjectKey, s: Script, hostOf: string -> Option<string>)
    requires WellFormed(s)
    ensures Ordered(Reconcile(req, s, hostOf).trace)
  {
    ReconcileSound(req, s, hostOf);
    ChainOrdered(Reconcile(req, s, hostOf).trace);
  }

  lemma {:induction false} ReconcileSound(req: ObjectKey, s: Script, hostOf: string -> Option<string>)
    requires WellFormed(s)
    ensures |Reconcile(req, s, hostOf).trace| > 0
    ensures Sound(s, hostOf, Reconcile(req, s, hostOf), -1)
  {
    if s.controlPlane.Ok? && |s.controlPlane.value.ownerRefs| > 0 && s.owner.Ok? {
      OwnedSound(req, s, hostOf);
    } else {
      UnownedSound(req, s, hostOf);
    }
  }

  /** A cycle that ends at one of the early exits. */
  lemma UnownedSound(req: ObjectKey, s: Script, hostOf: string -> Option<string>)
    requires WellFormed(s)
    requires !(s.controlPlane.Ok? && |s.controlPlane.value.ownerRefs| > 0 && s.owner.Ok?)
    ensures |Reconcile(req, s, hostOf).trace| > 0
    ensures Sound(s, hostOf, Reconcile(req, s, hostOf), -1)
  {
    var get := GetObject(req);
    if s.controlPlane.Ok? && |s.controlPlane.value.ownerRefs| > 0 {
      var owner := GetOwner(OwnerClusterOf(s.controlPlane.value));
      var v := Reconcile(req, s, hostOf).verdict;
      assert Reconcile(req, s, hostOf) == Then([get], Cycle([owner], v));
      StepSound(s, hostOf, owner, v, 0);
      ThenSound(s, hostOf, [get], Cycle([owner], v), 0, -1);
    } else {
      StepSound(s, hostOf, get, Reconcile(req, s, hostOf).verdict, -1);
    }
  }

  /** A cycle that found the owner cluster. */
  lemma {:induction false} OwnedSound(req: ObjectKey, s: Script, hostOf: string -> Option<string>)
    requires WellFormed(s)
    requires s.controlPlane.Ok? && |s.controlPlane.value.ownerRefs| > 0 && s.owner.Ok?
    ensures |Reconcile(req, s, hostOf).trace| > 0
    ensures Sound(s, hostOf, Reconcile(req, s, hostOf), -1)
  {
    var kcp, cluster := s.controlPlane.value, s.owner.value;
    var start := [GetObject(req), GetOwner(OwnerClusterOf(kcp))];
    ConnectSound(kcp, cluster, s, hostOf);
    ThenSound(s, hostOf, start, Connect(kcp, cluster, s, hostOf), 1, -1);
    SoundEqual(s, hostOf, Reconcile(req, s, hostOf), Then(start, Connect(kcp, cluster, s, hostOf)), -1);
  }

  lemma SoundEqual(s: Script, hostOf: string -> Option<string>, c: Cycle, d: Cycle, k: int)
    requires c == d && Sound(s, hostOf, d, k)
    ensures Sound(s, hostOf, c, k)
  {
  }
}

=== FILE: status.dfy ===
/** Projection of the backend's cluster records onto the observed status of
    a control plane. */
module Status {
  import opened Base
  import opened Api
  import opened Gateway

  /** Lists the klusters and reports on the first one named like `cp`;
      `list` is the outcome of the list call. */
  function GetStatus(cp: ControlPlane, list: Result<seq<Kluster>>): (r: Result<ControlPlaneStatus>)
    // a failed list yields its error and no status
    ensures list.Err? <==> r.Err?
    ensures list.Err? ==> r.error == list.error
    // only initialized, ready and version are ever set
    ensures r.Ok? ==> r.value.(initialized := false, ready := false, version := "") == ZeroStatus
    // ready implies initialized
    ensures r.Ok? && r.value.ready ==> r.value.initialized
  {
    match list
    case Err(e) => Err(e)
    case Ok(ks) =>
      match FirstNamed(ks, cp.key.name)
      case None => Ok(ZeroStatus)
      case Some(i) =>
        Ok(ZeroStatus.(version := "v" + ks[i].status.apiserverVersion,
                       initialized := true,
                       ready := ks[i].status.phase == Running))
  }

  /** With no record named like the control plane, the status is the zero status. */
  lemma {:induction false} NoRecordZeroStatus(cp: ControlPlane, ks: seq<Kluster>)
    requires NoneNamed(ks, cp.key.name)
    ensures GetStatus(cp, Ok(ks)) == Ok(ZeroStatus)
  {
    FirstNamedFinds(ks, cp.key.name);
  }

  /** The first record named like the control plane decides the status: it
      is initialized, ready exactly when that record is running, and its
      version is the record's apiserver version prefixed with "v". */
  lemma {:induction false} FirstRecordDecides(cp: ControlPlane, ks: seq<Kluster>, i: int)
    requires IsFirstNamed(ks, cp.key.name, i)
    ensures var r := GetStatus(cp, Ok(ks));
            && r.Ok? && r.value.initialized
            && (r.value.ready <==> ks[i].status.phase == Running)
            && r.value.version == "v" + ks[i].status.apiserverVersion
  {
    FirstNamedUnique(ks, cp.key.name, i);
  }

  /** Records after the first match are never looked at. */
  lemma {:induction false} LaterRecordsIgnored(cp: ControlPlane, ks: seq<Kluster>, more: seq<Kluster>)
    requires exists i :: 0 <= i < |ks| && ks[i].name == cp.key.name
    ensures GetStatus(cp, Ok(ks + more)) == GetStatus(cp, Ok(ks))
  {
    FirstNamedFinds(ks, cp.key.name);
    var first := FirstNamed(ks, cp.key.name).value;
    assert (ks + more)[..first] == ks[..first];
    FirstNamedUnique(ks + more, cp.key.name, first);
  }

  /** Records of other names in front of the match change nothing. */
  lemma {:induction false} OtherNamesIgnored(cp: ControlPlane, others: seq<Kluster>, ks: seq<Kluster>)
    requires NoneNamed(others, cp.key.name)
    ensures GetStatus(cp, Ok(others + ks)) == GetStatus(cp, Ok(ks))
  {
    var all := others + ks;
    FirstNamedFinds(ks, cp.key.name);
    match FirstNamed(ks, cp.key.name)
    case None =>
      forall j | 0 <= j < |all|
        ensures all[j].name != cp.key.name
      {
        if j >= |others| {
          assert all[j] == ks[j - |others|];
        }
      }
      FirstNamedFinds(all, cp.key.name);
    case Some(i) =>
      var before := all[..|others| + i];
      forall j | 0 <= j < |before|
        ensures before[j].name != cp.key.name
      {
        if j >= |others| {
          assert before[j] == ks[..i][j - |others|];
        } else {
          assert before[j] == others[j];
        }
      }
      FirstNamedUnique(all, cp.key.name, |others| + i);
  }
}

=== FILE: token.dfy ===
/** The redirect-driven login protocol of the Kubernikus auth service.

    Both HTTP exchanges are abstracted to response summaries: the status
    code, how many redirects the client followed, the URL finally reached and
    what the final body decodes to. Parsing the configured auth URL is an
    uninterpreted partial function supplied by the caller. */
module Token {
  import opened Base

  /** A parsed URL; the query is kept as its list of key/value pairs. */
  datatype Url = Url(scheme: string, host: string, path: string, query: seq<(string, string)>)

  datatype HttpRequest =
    | HttpGet(url: Url)
    | HttpPostForm(target: string, form: map<string, string>)

  /** What decoding the final body into `{idToken, type}` yields; absent
      fields decode to "". */
  datatype Body = Unreadable | Malformed | Decoded(idToken: string, kind: string)

  datatype Response = Response(statusCode: int, redirects: nat, finalUrl: string, body: Body)

  /** The transport outcome of each of the two calls; None is a transport error. */
  datatype Exchange = Exchange(discovery: Option<Response>, login: Option<Response>)

  /** The requests issued, in order, and the token or the reason for failing. */
  datatype Login = Login(requests: seq<HttpRequest>, token: Result<string>)

  /** The discovery request: the auth URL with its whole query replaced by
      the connector id. */
  function DiscoveryUrl(u: Url, connectorId: string): (d: Url)
    ensures d.scheme == u.scheme && d.host == u.host && d.path == u.path
    ensures d.query == [("connector_id", connectorId)]
  {
    u.(query := [("connector_id", connectorId)])
  }

  /** The credential form; a form holds one value per key. */
  function CredentialForm(username: string, password: string): (f: map<string, string>)
    ensures f.Keys == {"login", "password"}
    ensures f["login"] == username && f["password"] == password
  {
    map["login" := username, "password" := password]
  }

  predicate IsErrorStatus(code: int) { code >= 400 }

  /** The failure classes of the protocol: discovery, credentials, parsing. */
  predicate IsDiscoveryFailure(why: LoginFailure) {
    why.MalformedAuthUrl? || why.DiscoveryUnreachable? || why.DiscoveryStatus? || why.NoDiscoveryRedirects?
  }

  predicate IsCredentialFailure(why: LoginFailure) {
    why.LoginUnreachable? || why.LoginStatus? || why.NoLoginRedirects?
  }

  predicate IsParsingFailure(why: LoginFailure) {
    why.BodyUnreadable? || why.BodyMalformed?
  }

  /** The whole protocol succeeds: both calls arrive, neither is an error
      status, both were redirected, and the body decodes. */
  predicate Succeeds(parsed: Option<Url>, ex: Exchange) {
    && parsed.Some?
    && ex.discovery.Some?
    && !IsErrorStatus(ex.discovery.value.statusCode)
    && ex.discovery.value.redirects >= 1
    && ex.login.Some?
    && !IsErrorStatus(ex.login.value.statusCode)
    && ex.login.value.redirects >= 1
    && ex.login.value.body.Decoded?
  }

  function Fail(requests: seq<HttpRequest>, why: LoginFailure): Login {
    Login(requests, Err(LoginFailed(why)))
  }

  /** Obtains an id token. A single redirect counter is shared by both calls
      and reset between them. */
  function GetToken(username: string, password: string, connectorId: string, authUrl: string,
                    parseUrl: string -> Option<Url>, ex: Exchange): (r: Login)
    // no request is issued when the auth URL does not parse
    ensures parseUrl(authUrl).None? ==> r == Fail([], MalformedAuthUrl)
    // otherwise the first request is the discovery GET
    ensures parseUrl(authUrl).Some? ==>
              1 <= |r.requests| <= 2
              && r.requests[0] == HttpGet(DiscoveryUrl(parseUrl(authUrl).value, connectorId))
    // the credential POST is issued only after a redirected, non-error discovery,
    // and goes to the URL the discovery ended at
    ensures |r.requests| == 2 <==>
              parseUrl(authUrl).Some? && ex.discovery.Some?
              && !IsErrorStatus(ex.discovery.value.statusCode) && ex.discovery.value.redirects >= 1
    ensures |r.requests| == 2 ==>
              r.requests[1] == HttpPostForm(ex.discovery.value.finalUrl, CredentialForm(username, password))
    // the error status of the discovery is checked before its redirects
    ensures parseUrl(authUrl).Some? && ex.discovery.Some? && IsErrorStatus(ex.discovery.value.statusCode) ==>
              r.token == Err(LoginFailed(DiscoveryStatus))
    ensures parseUrl(authUrl).Some? && ex.discovery.Some? && !IsErrorStatus(ex.discovery.value.statusCode)
            && ex.discovery.value.redirects == 0 ==>
              r == Fail(r.requests, NoDiscoveryRedirects) && |r.requests| == 1
    // the same order holds for the credential POST
    ensures |r.requests| == 2 && ex.login.Some? && IsErrorStatus(ex.login.value.statusCode) ==>
              r.token == Err(LoginFailed(LoginStatus))
    ensures |r.requests| == 2 && ex.login.Some? && !IsErrorStatus(ex.login.value.statusCode)
            && ex.login.value.redirects == 0 ==>
              r.token == Err(LoginFailed(NoLoginRedirects))
    // success exactly when every gate passes; the token is the idToken field, possibly empty
    ensures r.token.Ok? <==> Succeeds(parseUrl(authUrl), ex)
    ensures r.token.Ok? ==> r.token.value == ex.login.value.body.idToken
    ensures r.token.Err? ==> r.token.error.LoginFailed?
  {
    match parseUrl(authUrl)
    case None => Fail([], MalformedAuthUrl)
    case Some(u) =>
      var first := [HttpGet(DiscoveryUrl(u, connectorId))];
      match ex.discovery
      case None => Fail(first, DiscoveryUnreachable)
      case Some(r1) =>
        if IsErrorStatus(r1.statusCode) then Fail(first, DiscoveryStatus)
        else if r1.redirects < 1 then Fail(first, NoDiscoveryRedirects)
        else
          var both := first + [HttpPostForm(r1.finalUrl, CredentialForm(username, password))];
          match ex.login
          case None => Fail(both, LoginUnreachable)
          case Some(r2) =>
            if IsErrorStatus(r2.statusCode) then Fail(both, LoginStatus)
            else if r2.redirects < 1 then Fail(both, NoLoginRedirects)
            else
              match r2.body
              case Unreadable => Fail(both, BodyUnreadable)
              case Malformed => Fail(both, BodyMalformed)
              case Decoded(idToken, _) => Login(both, Ok(idToken))
  }

  /** Because the counter is reset, the credential POST is judged on its own
      redirects: how often the discovery was redirected, once it was at all,
      does not change the outcome. */
  lemma DiscoveryRedirectsForgotten(username: string, password: string, connectorId: string, authUrl: string,
                                    parseUrl: string -> Option<Url>, r1: Response, n: nat, login: Option<Response>)
    requires r1.redirects >= 1 && n >= 1
    ensures GetToken(username, password, connectorId, authUrl, parseUrl, Exchange(Some(r1), login))
         == GetToken(username, password, connectorId, authUrl, parseUrl, Exchange(Some(r1.(redirects := n)), login))
  {
  }

  /** Every failure falls in exactly one of the three classes. */
  lemma FailureClasses(username: string, password: string, connectorId: string, authUrl: string,
                       parseUrl: string -> Option<Url>, ex: Exchange)
    ensures var r := GetToken(username, password, connectorId, authUrl, parseUrl, ex);
            r.token.Err? ==>
              var why := r.token.error.why;
              && (|r.requests| <= 1 <==> IsDiscoveryFailure(why))
              && (IsCredentialFailure(why) || IsParsingFailure(why) <==> |r.requests| == 2)
  {
  }

  /** The type field of the body plays no part. */
  lemma KindIgnored(username: string, password: string, connectorId: string, authUrl: string,
                    parseUrl: string -> Option<Url>, r1: Response, r2: Response, idToken: string, k1: string, k2: string)
    ensures GetToken(username, password, connectorId, authUrl, parseUrl,
                     Exchange(Some(r1), Some(r2.(body := Decoded(idToken, k1)))))
         == GetToken(username, password, connectorId, authUrl, parseUrl,
                     Exchange(Some(r1), Some(r2.(body := Decoded(idToken, k2)))))
  {
  }
}
